=== FILE: README.md ===
# stremio-subdivx, modelled in Dafny

A Stremio add-on that finds Spanish subtitles on Subdivx. For a movie or an episode, the add-on:

- looks up the IMDb title;
- builds a Subdivx search term from it;
- scrapes the site version from the Subdivx landing page;
- posts the search form;
- turns the rows of the reply into candidates, each with its distinct lower-case words;
- ranks the candidates by how many of the player's file-name words they share.

A download fetches the archive, caps it at 200 KiB, and recognises ZIP, RAR or GZIP by magic bytes. It returns the first `.srt` entry, re-encoded to UTF-8 when its charset calls for it. Title lookups and searches go through a key/value cache whose entries expire.

The model has one module per component:

| module | file | component |
|---|---|---|
| `Results` | results.dfy | error kinds, `Result`, `Option` |
| `Ascii` | ascii.dfy | byte classes, ASCII lower-casing, prefix and suffix |
| `Decimal` | decimal.dfy | `strconv.Itoa` and `strconv.Atoi` |
| `Validator` | validator.dfy | request validators |
| `Features` | features.dfy | tokenizer and relevance score |
| `Subdivx` | subdivx.dfy | version scrape, search form, rows to candidates |
| `Archive` | archive.dfy | download cap, magic bytes, choice of the subtitle entry |
| `LimitedReader` | limitedreader.dfy | the budgeted reader |
| `Cache` | cache.dfy | `Memoize` over an expiring store |
| `Service` | service.dfy | search term, cache keys, ranking, charset step, statistics |
| `App` | app.dfy | the two HTTP handlers' request parsing and response shaping |

A Go string is modelled as a Dafny `string` in which each character stands for one byte. Archive and subtitle contents are `seq<Byte>`.

These are parameters of the model rather than parts of it:

- the network;
- the clock, read once when a cache entry is looked up and once when a computed value is written;
- the cache store's I/O faults;
- JSON encoding and decoding;
- the decompressors;
- the charset detector;
- the charmap decoders;
- the IMDb client.

## Model

| member | source | states |
|---|---|---|
| `Decimal.AtoiExact` | internal/common/validator.go:35-38 | strconv.Atoi succeeds exactly on an optionally signed run of digits whose value fits in an int64, and then returns that value |
| `Decimal.Atoi` | internal/app.go:124-131 | a parsed value always lies in the int64 range, and an overflow is clamped to the bound on its side, as strconv.Atoi reports it |
| `Decimal.AtoiItoa` | internal/service.go:240 | parsing what strconv.Itoa renders gives back every int64 |
| `Validator.ValidateImdbTitleId` | internal/common/validator.go:9-20 | accepted exactly when the ID is "tt" followed by one or more ASCII digits |
| `Validator.ValidateSubtitleType` | internal/common/validator.go:24-30 | accepted exactly for "movie" and "series" |
| `Validator.ValidateSubdivxSubtitleId` | internal/common/validator.go:34-45 | accepted exactly for decimal literals in 1..2^63-1; a non-number or an int64 overflow is "not a number", and a value of zero or less is "not positive" |
| `Validator.RenderedIdsValidate` | internal/common/validator.go:34-45 | every positive int64 rendered by strconv.Itoa passes the download-ID validator |
| `Validator.ImdbAcceptedExamples` | internal/common/validator_test.go:15-17 | "tt1234567", "tt0012345" and "tt0" are accepted |
| `Validator.ImdbRejectedExamples` | internal/common/validator_test.go:18-23 | "tt", "tt-1", "1234567", "ttabcdefg" and "" are rejected |
| `Validator.SubtitleIdExamples` | internal/common/validator_test.go:58-62 | "123456" is accepted; "0" and "-123456" are not positive; "abc123" and "" are not numbers |
| `Features.Normalize` | pkg/subdivx/subtitlefeatures.go:10-21 | same length; a position holds a token character exactly when the input byte is an ASCII letter or digit, otherwise a space |
| `Features.Dedup` | pkg/subdivx/subtitlefeatures.go:22-32 | no duplicates, the same set of words, and the order of first occurrence |
| `Features.Words` | pkg/subdivx/subtitlefeatures.go:9-33 | the tokens are distinct, non-empty, and made only of lower-case letters and digits |
| `Features.WordsFirstOccurrences` | pkg/subdivx/subtitlefeatures.go:9-33 | the words are exactly the fields of the filtered text, in order of first occurrence |
| `Features.FieldsSplit` | pkg/subdivx/subtitlefeatures.go:23 | splitting into fields distributes over a space-joined concatenation |
| `Features.FieldsJoin` | pkg/subdivx/subtitlefeatures.go:23 | the fields of space-joined non-empty space-free words are those words |
| `Features.DedupAbsorbs` | pkg/subdivx/subtitlefeatures.go:22-32 | appending words already seen does not change the deduplicated list |
| `Features.WordsEmpty` | pkg/subdivx/subtitlefeatures.go:9-33 | no words exactly when the input has no ASCII letter or digit |
| `Features.WordsIgnoreCase` | pkg/subdivx/subtitlefeatures.go:17 | inputs equal up to ASCII case have the same words |
| `Features.WordsSeparator` | pkg/subdivx/subtitlefeatures.go:13-20 | replacing one non-alphanumeric byte by another leaves the words unchanged |
| `Features.WordsRepeated` | pkg/subdivx/subtitlefeatures.go:22-32 | repeating the input after a space adds no words |
| `Features.WordsPunctuationExample` | pkg/subdivx/subtitlefeatures_test.go:146-147 | "abc!def123&ghi 456##" gives abc, def123, ghi, 456 |
| `Features.WordsMixedCaseExample` | pkg/subdivx/subtitlefeatures_test.go:136-137 | "HeLLo WoRLd" gives hello, world |
| `Features.Score` | pkg/subdivx/subtitlefeatures.go:36-47 | the nested counting loop computes the number of the candidate's words that occur among the distinct words of the input |
| `Features.SumCountsIsMatchCount` | pkg/subdivx/subtitlefeatures.go:39-45 | with distinct query words, summing per query word the matches in the description equals counting description words found in the query |
| `Features.MatchCountDistinct` | pkg/subdivx/subtitlefeatures.go:36-47 | for a candidate with distinct words the score is the size of the intersection of the two word sets |
| `Features.CountWord` | pkg/subdivx/subtitlefeatures.go:40-44 | the inner loop counts exactly the candidate words equal to one input word, zero when the word does not occur |
| `Features.ScoreBound` | pkg/subdivx/subtitlefeatures.go:36-47 | the score never exceeds the number of input words nor the number of candidate words |
| `Features.ScoreInvariance` | pkg/subdivx/subtitlefeatures.go:38 | the score ignores letter case, punctuation choice and repeated input, and is 0 for empty input |
| `Subdivx.RunLength` | pkg/subdivx/subdivx.go:73 | the longest run of version characters from a position |
| `Subdivx.CaptureAtComplete` | pkg/subdivx/subdivx.go:73 | a match of the version pattern at a position is exactly the one the scanner captures there |
| `Subdivx.FindVersionFrom` | pkg/subdivx/subdivx.go:145 | the first match at or after a position, and no match between |
| `Subdivx.StripDots` | pkg/subdivx/subdivx.go:150 | no dots remain and every other character keeps its multiplicity |
| `Subdivx.StripDotsAppend` | pkg/subdivx/subdivx.go:150 | dot removal distributes over concatenation |
| `Subdivx.ExtractVersion` | pkg/subdivx/subdivx.go:145-150 | no match is VersionNotFound, and a version never contains a dot |
| `Subdivx.ExtractVersionSpec` | pkg/subdivx/subdivx.go:145-150 | a version is found exactly when the pattern matches somewhere, and it is the leftmost capture without its dots |
| `Subdivx.ExtractVersionExample` | pkg/subdivx/subdivx_test.go:51 | the test server's landing page yields version "1a0b" |
| `Subdivx.SearchForm` | pkg/subdivx/subdivx.go:156-160 | four fields: tabla=resultados, filtros empty, "buscar"+version carrying the title, and the token |
| `Subdivx.Candidates` | pkg/subdivx/subdivx.go:196-207 | one candidate per row in row order, with ID, title and description copied, and the record count carried over |
| `Subdivx.GetSubtitles` | pkg/subdivx/subdivx.go:122-210 | a transport failure or missing version fails before posting; after that the reply decides: its transport error, BadStatus for any status but 200, MalformedJson for an undecodable body, Aborted when `iTotalRecords` is negative or beyond what `make` accepts (the runtime panic at line 198), and otherwise exactly the candidates of its rows |
| `Subdivx.NegativeTotalAborts` | pkg/subdivx/subdivx.go:196-199 | a good reply whose `iTotalRecords` is negative yields no candidates: the request is aborted |
| `Subdivx.NonOkStatusFails` | pkg/subdivx/subdivx.go:178-180 | any status but 200 is an error carrying the status |
| `Subdivx.CandidateWords` | pkg/subdivx/subdivx.go:205 | a candidate's words are exactly the words of its title together with those of its description |
| `Archive.Download` | pkg/subdivx/subdivx.go:218-241 | a non-200 reply is an error; otherwise the first 200 KiB of the body, the whole body when shorter |
| `Archive.Classify` | pkg/subdivx/subdivx.go:250-258 | ZIP, RAR (4 or 5) and GZIP each recognised exactly by their signatures, otherwise unknown |
| `Archive.SignaturesDisjoint` | pkg/subdivx/subdivx.go:252-258 | no data carries two of the signatures |
| `Archive.FirstSubtitle` | pkg/subdivx/subdivx.go:260-280 | the position of the first entry whose lower-cased name ends in ".srt", none before it |
| `Archive.FromZip` | pkg/subdivx/subdivx.go:267-300 | no ".srt" entry is NoSubtitleInArchive; otherwise the first such entry in directory order, or InvalidArchive when it cannot be read |
| `Archive.FromRar` | pkg/subdivx/subdivx.go:301-330 | the first ".srt" header, or InvalidArchive when it cannot be read; without one, InvalidArchive for a broken stream and NoSubtitleInArchive otherwise |
| `Archive.Extract` | pkg/subdivx/subdivx.go:246-351 | under 4 bytes is too short; an unrecognised signature is an unknown format; a ZIP, RAR or GZIP archive goes to its own reader, and one that cannot be opened is InvalidArchive |
| `Archive.GetSubtitle` | pkg/subdivx/subdivx.go:213-356 | a transport error or non-200 reply comes back as the error; otherwise the downloaded, capped bytes are extracted |
| `Archive.ArchiveSubtitleExtracted` | pkg/subdivx/subdivx.go:267-330 | a downloaded ZIP or RAR whose first ".srt" entry is readable yields that entry, whatever follows |
| `Archive.FirstSubtitleWins` | pkg/subdivx/subdivx.go:274-329 | ZIP and RAR return the first ".srt" entry whatever follows it, even from a RAR stream that breaks later |
| `Archive.ShortGzipRefused` | pkg/subdivx/subdivx.go:246-248 | a two- or three-byte GZIP signature is refused as too short |
| `Archive.GzipPassthrough` | pkg/subdivx/subdivx.go:331-348 | a GZIP stream is returned under its header name with no ".srt" filter |
| `Archive.OversizedDownloadTruncated` | pkg/subdivx/subdivx.go:234-240 | only the first 200 KiB of a longer download reach the unpackers |
| `Archive.SubtitleNameExamples` | pkg/subdivx/subdivx.go:260-263 | "subtitle.srt" and "Movie.SRT" qualify; ".sub", ".ass" and a bare "srt" do not |
| `LimitedReader.Read` | pkg/subdivx/limitedreader.go:29-39 | a spent budget returns the configured error and nothing else; otherwise at most min(buffer, N) source bytes, with N reduced by the count, the source's EOF passed through and never the limit error, and some bytes whenever both bytes and budget remain |
| `LimitedReader.Reads` | pkg/subdivx/limitedreader.go:29-39 | over any sequence of reads, bytes delivered plus budget left equals the initial budget, and the bytes are the source's prefix |
| `LimitedReader.TotalWithinBudget` | pkg/subdivx/limitedreader.go:14-17 | never more than N bytes in all, and those are the source's first bytes |
| `LimitedReader.ReadAll` | pkg/subdivx/limitedreader_test.go:26-44 | io.ReadAll never reports EOF: the source's EOF ends the read successfully |
| `LimitedReader.ReadAllSpec` | pkg/subdivx/limitedreader.go:29-39 | reading to the end yields the whole source when it is shorter than N, otherwise exactly N bytes and the configured error |
| `LimitedReader.ExactBudgetReportsLimit` | pkg/subdivx/limitedreader.go:30-32 | a source of exactly N bytes is delivered whole but ends with the limit error, not EOF |
| `LimitedReader.HelloWorldExamples` | pkg/subdivx/limitedreader_test.go:11-47 | on "Hello, World!": a first read of 5 under budget 5; read-all under budgets 5, 14 and 20 |
| `Cache.Memoize` | internal/cache/cache.go:36-79 | a read fault or undecodable entry is an error without computing; an entry live at the lookup's clock reading is served without computing; a miss calls fn once with the key; an error from fn is returned and not stored; a value is stored to expire ttl after the write's own clock reading, taken once fn has returned, or a write failure reported; no other key changes |
| `Cache.HitBeforeExpiry` | internal/cache/cache.go:40-73 | a value stored is served without computing by any call made before ttl has passed since its write, so a slow fn keeps it cached past the first call's start plus ttl |
| `Cache.MissAfterExpiry` | internal/cache/cache.go:40-73 | once ttl has passed since the write, the function is called again |
| `Cache.ErrorsNotCached` | internal/cache/cache.go:61-64 | a failed computation leaves nothing behind, so the next call computes again |
| `Cache.OtherKeysUnaffected` | internal/cache/cache.go:66-73 | memoizing one key does not change what a call for another key, at any instant, returns or computes |
| `Service.Pad2` | internal/service.go:185 | %02d: single digits get a leading zero; other values are rendered as they are |
| `Service.SeriesTermInjective` | internal/service.go:181-186 | for a series the search term fixes the season and the episode: two terms for the same title are equal only for the same pair |
| `Service.MovieTermInjective` | internal/service.go:181-184 | for a movie the search term fixes the year |
| `Service.EpisodesCachedApart` | internal/service.go:181-189 | distinct episodes of a series are cached under distinct subtitles keys |
| `Service.SearchTermExamples` | internal/service.go:181-186 | "Inception (2010)", "Friends S01E02", "Friends S01E17" |
| `Service.TitleKey` | internal/service.go:145-146 | the title key is the fixed prefix followed by the IMDb ID |
| `Service.SubtitlesKey` | internal/service.go:189-190 | the search key is the fixed versioned prefix followed by the search term |
| `Service.KeysDisjoint` | internal/service.go:145-189 | the two key families never collide and each is injective |
| `Service.Insert` | internal/service.go:230-232 | inserting into a score-ordered list keeps it ordered and adds exactly the element |
| `Service.SortByScore` | internal/service.go:230-232 | a permutation in non-increasing score order, which is all sort.Slice promises |
| `Service.SortedScoresUnique` | internal/service.go:230-232 | any two such orderings list the same scores: ties are the only freedom |
| `Service.ScoreAll` | internal/service.go:222-229 | each candidate's ID with its score against the file name |
| `Service.RenderIds` | internal/service.go:234-241 | strconv.Itoa of every ranked ID, in ranking order |
| `Service.GetSubtitles` | internal/service.go:139-248 | a failed title lookup stops before any search; the title is what the memoized lookup returned and the candidates are what the memoized search returned, and either one's error is the response; a success lists every candidate once by non-increasing score, in "spa", with the title's year; only the two keys change in the store |
| `Service.ColdCache` | internal/service.go:145-232 | with an empty cache and no faults, whatever the clock reads, the title is looked up once, its term searched once, and the reply ranks exactly the search's candidates |
| `Service.WarmCache` | internal/service.go:145-232 | repeating the request while the title is within 48 hours and the search within 24 hours of their writes performs no lookup or search and gives the same reply |
| `Service.TitleFailureStopsSearch` | internal/service.go:147-164 | an uncached title whose lookup fails fails the request with that error, searches nothing and writes nothing |
| `Service.Reencode` | internal/service.go:266-283 | Windows-1252 and ISO-8859-1 detections both decode with the Windows-1252 table; any other detection returns the bytes untouched |
| `Service.IsoDecoderUnused` | internal/service.go:266-275 | the ISO-8859-1 table never influences the result |
| `Service.GetSubtitle` | internal/service.go:253-284 | the archive's error, or the subtitle's bytes after the charset step |
| `Service.Polled` | internal/loki/loki.go:45-92 | a failed log query counts as 0 |
| `Service.MergePolled` | internal/service.go:327-335 | a zero never overwrites a count; the title is untouched |
| `Service.SetTitleInstant` | internal/service.go:171-175 | the search path changes only the title shown |
| `Service.PollRoundsSpec` | internal/service.go:316-340 | after any sequence of polls each count is the last non-zero value reported, failures counting as zero |
| `Service.FailedPollKeepsStats` | internal/service.go:319-335 | a round in which both queries fail leaves the statistics unchanged |
| `App.Split` | internal/app.go:114 | at least one piece, none holding the separator |
| `App.JoinSplit` | internal/app.go:114 | joining the pieces with the separator gives the input back |
| `App.SplitJoin` | internal/app.go:114-115 | splitting a join of separator-free pieces gives the pieces back |
| `App.Unescape` | internal/app.go:102 | url.PathUnescape and QueryUnescape: decoding never lengthens the text |
| `App.UnescapeFails` | internal/app.go:102-108 | unescaping fails exactly when some '%' is not followed by two hexadecimal digits |
| `App.UnescapeVerbatim` | internal/app.go:102 | text without '%' (and in a query without '+') decodes to itself |
| `App.UnescapeEscapeAll` | internal/app.go:102 | decoding undoes percent-encoding of any bytes |
| `App.UnescapeAppend` | internal/app.go:102 | decoding is piecewise: a decodable prefix decodes the same way before any text, and the whole fails exactly when the rest does |
| `App.EscapedColonsDecoded` | internal/app.go:102-114 | "id%3As%3Ae" with '%'-free parts decodes to "id:s:e" |
| `App.EscapedRequestParses` | internal/app.go:102-146 | an id whose colons arrive percent-encoded is handled exactly like the plain one |
| `App.Cut` | internal/app.go:136 | the text before the first separator and after it, or the whole text when absent |
| `App.ParseSegments` | internal/app.go:136-146 | the parse fails exactly when some segment holds ';' or a '%' without two hexadecimal digits in either half of its first '=' cut; a ';' anywhere is an error |
| `App.ParseQuery` | internal/app.go:134-146 | url.ParseQuery of the wildcard fails exactly when one of its '&'-separated segments does; a ';' anywhere is an error |
| `App.ParseSegmentsEncoded` | internal/app.go:136 | the `key=value` segments of plain pairs parse back to exactly those pairs, in order |
| `App.QueryRoundTrip` | internal/app.go:134-141 | url.ParseQuery inverts the '&'-join of any number of plain `key=value` pairs, so Get sees the same file name as in the pairs |
| `App.FilenameAfterOtherParam` | internal/app.go:134-141 | "k=v&filename=x" parses to both pairs and yields "x" |
| `App.EmptyQuery` | internal/app.go:136 | an empty wildcard parses without error to no pairs |
| `App.Get` | internal/app.go:141 | the first value given for the key, or "" when there is none |
| `App.SingleParamQuery` | internal/app.go:136-141 | a one-pair query needing no decoding parses to that pair |
| `App.FilenameQuery` | internal/app.go:136-141 | "filename=<name>" yields that file name |
| `App.ParseLookup` | internal/app.go:93-146 | accepted exactly when the type, the unescaping, the IMDb ID, the query and a non-empty file name all pass; season and episode are strconv.Atoi's values of parts two and three when there are exactly three parts, 0 otherwise, and a non-number is not a rejection |
| `App.ThreePartRequestParses` | internal/app.go:114-132 | "id:s:e" with a file name reaches the service with Atoi's values of s and e, numbers or not |
| `App.NonNumericPartsAccepted` | internal/app.go:123-132 | "tt…:x:y" is accepted with season and episode 0 |
| `App.SubtitlesHandler` | internal/app.go:87-183 | 400 exactly on a bad request, 500 exactly on a service error other than an abort, no response at all exactly when the service aborted (net/http recovers the panic and closes the connection, as no recovering middleware is installed in cmd/addon/main.go); otherwise one entry per ID in order, with its download URL, and a 15-day max-age only for titles older than last year with more than one subtitle, 120 seconds otherwise |
| `App.EpisodeRequestParses` | internal/app.go:102-146 | "ttN:season:episode" with "filename=<name>" reaches the service with exactly those values |
| `App.MovieRequestParses` | internal/app.go:114-132 | a bare IMDb ID leaves season and episode at 0 |
| `App.SubdivxSubtitleHandler` | internal/app.go:190-225 | an invalid ID is a 400 with no fetch; a fetch error is a 500; otherwise the bytes, decoded from ISO-8859-1 only when detected as such |
| `App.ListedIdsDownloadable` | internal/app.go:196-202 | every positive ID the subtitles list renders is accepted and fetched by the download endpoint |

## Left out

- Network transport: GetToken, cookies, headers, timeouts and URL construction. The landing page, the search reply and the download reply are inputs to the model.
- JSON decoding of the search reply: a body that does not decode is an input flag.
- Form encoding of the POST body: the form is modelled as a map.
- The regular-expression engine: the version pattern `>v([0-9.a-z]+)<` is scanned directly. The capture is the maximal run, because '<' is not a version character.
- ZIP, RAR and GZIP decompression. Oracles list the entries and their contents; a failed read of the chosen entry is an entry without contents.
- Charset detection and the charmap tables: both are oracle functions. The Windows-1252 transform's read error is not modelled, because that decoder maps every byte.
- The badger store's internals. An entry is found only while the clock is before its expiry instant, which is badger's rule too; the service always passes 48 or 24 hours.
- Cache.Memoize: the cache.go signature passes the key to fn. The service's closures ignore it, and the model passes the key and ignores it in the same way.
- Subdivx.GetSubtitles: the `make` limit modelled is that of a 64-bit Linux build, whose runtime refuses allocations over 2^48 bytes. A record count under that limit but larger than the memory available ends the process with an out-of-memory fatal error; the model returns the candidates instead. An aborted search reaches the cache as an error from fn, so nothing is stored, as in Go, where the panic unwinds before the write.
- Concurrency: the statistics mutex, the goroutine that sets the title shown, the websocket publication (BroadcastStats' JSON and Publish), and the race between two requests filling the same key.
- The polling ticker and the log-store HTTP queries: the model takes each round's two answers as inputs.
- Logging, tracing and metrics, including the cache hit/miss counters.
- The application entry point, configuration, the IMDb client, the frontend and the header-modifying round tripper.
- url.ParseQuery's newer cap on the number of parameters is not modelled. ParseQuery stops at the first error; Go goes on parsing but reports it, and the handler answers 400 either way.
- Decimal.Itoa carries no contract of its own. Its meaning is stated by Decimal.AtoiItoa.
- Service.SortByScore: the model sorts by insertion. Its contract claims only what sort.Slice guarantees: a permutation in non-increasing score order. The order among equal scores is left unspecified.

Where the code and its documentation differ, the model follows the code:

- Only ".srt" entries are accepted, although other formats might be expected.
- Repeated words in the file name count once, because the query is deduplicated before counting.
- Equal scores may come back in any order.
- A subtitle detected as ISO-8859-1 is decoded with the Windows-1252 table in the service. The download handler's own ISO-8859-1 branch then applies the ISO table only to bytes still detected as ISO-8859-1.
- A source of exactly N bytes read through the LimitedReader ends with the limit error rather than EOF.
- The download cap uses io.LimitReader, which truncates silently; it does not use the package's own LimitedReader.

=== FILE: app.dfy ===
/** The pure part of the HTTP handlers (internal/app.go): validating and
    parsing the subtitles request, shaping its JSON response and cache
    lifetime, and the download endpoint's validation and charset step. The
    router, the JSON encoder and the response writer are not modelled; the
    service is a parameter. The standard library's strings.Split,
    url.PathUnescape, url.ParseQuery and url.Values.Get are written out here,
    over strings whose characters stand for bytes. */
module App {
  import opened Results
  import opened Ascii
  import opened Decimal
  import Validator
  import Service

  // ---- strings.Split on a one-character separator --------------------------------

  function Split(s: string, sep: char): (parts: seq<string>)
    ensures |parts| >= 1
    ensures forall i :: 0 <= i < |parts| ==> sep !in parts[i]
    decreases |s|
  {
    if s == [] then [[]]
    else
      var rest := Split(s[1..], sep);
      if s[0] == sep then [[]] + rest else [[s[0]] + rest[0]] + rest[1..]
  }

  /** strings.Join, the inverse of Split. */
  function Join(parts: seq<string>, sep: char): (s: string)
    requires |parts| >= 1
    decreases |parts|
  {
    if |parts| == 1 then parts[0] else parts[0] + [sep] + Join(parts[1..], sep)
  }

  /** Joining the pieces puts the separators back exactly where they were. */
  lemma {:induction false} JoinSplit(s: string, sep: char)
    ensures Join(Split(s, sep), sep) == s
    decreases |s|
  {
    if s != [] {
      JoinSplit(s[1..], sep);
      var rest := Split(s[1..], sep);
      assert s == [s[0]] + s[1..];
      if s[0] == sep {
        assert ([[]] + rest)[1..] == rest;
      } else {
        var p := [[s[0]] + rest[0]] + rest[1..];
        assert p[1..] == rest[1..];
      }
    }
  }

  /** A separator-free prefix sticks to the first piece. */
  lemma {:induction false} SplitPrepend(p: string, t: string, sep: char)
    requires sep !in p
    ensures Split(p + t, sep) == [p + Split(t, sep)[0]] + Split(t, sep)[1..]
    decreases |p|
  {
    var st := Split(t, sep);
    if p != [] {
      SplitPrepend(p[1..], t, sep);
      var r := Split(p[1..] + t, sep);
      assert p[0] in p;
      assert p + t == [p[0]] + (p[1..] + t);
      SplitCons(p[0], p[1..] + t, sep);
      assert [p[0]] + (p[1..] + st[0]) == p + st[0];
    } else {
      assert p + t == t && p + st[0] == st[0];
      assert st == [st[0]] + st[1..];
    }
  }

  /** A character other than the separator joins the first piece. */
  lemma SplitCons(c: char, s: string, sep: char)
    requires c != sep
    ensures Split([c] + s, sep) == [[c] + Split(s, sep)[0]] + Split(s, sep)[1..]
  {
    assert ([c] + s)[0] == c && ([c] + s)[1..] == s;
  }

  /** Splitting what Join built gives back the pieces, when none of them holds
      the separator. */
  lemma {:induction false} SplitJoin(parts: seq<string>, sep: char)
    requires |parts| >= 1
    requires forall i :: 0 <= i < |parts| ==> sep !in parts[i]
    ensures Split(Join(parts, sep), sep) == parts
    decreases |parts|
  {
    if |parts| == 1 {
      SplitPrepend(parts[0], [], sep);
      assert parts[0] + [] == parts[0];
    } else {
      var tail := Join(parts[1..], sep);
      SplitJoin(parts[1..], sep);
      SplitPrepend(parts[0], [sep] + tail, sep);
      assert ([sep] + tail)[1..] == tail;
      assert Split([sep] + tail, sep) == [[]] + Split(tail, sep);
      assert Split([sep] + tail, sep) == [[]] + parts[1..];
      assert parts[0] + [sep] + tail == parts[0] + ([sep] + tail);
      assert parts == [parts[0]] + parts[1..];
      assert Join(parts, sep) == parts[0] + ([sep] + tail);
      assert Split(Join(parts, sep), sep) == [parts[0] + []] + parts[1..];
      assert parts[0] + [] == parts[0];
    }
  }

  // ---- Percent-decoding ------------------------------------------------------------

  predicate IsHex(c: char) { IsDigit(c) || 'a' <= c <= 'f' || 'A' <= c <= 'F' }

  function UnHex(c: char): (n: nat)
    requires IsHex(c)
    ensures n < 16
  {
    if IsDigit(c) then c as int - '0' as int
    else if 'a' <= c <= 'f' then c as int - 'a' as int + 10
    else c as int - 'A' as int + 10
  }

  /** A '%' not followed by two hexadecimal digits. */
  predicate BadEscapeAt(s: string, i: nat)
    requires i < |s|
  {
    s[i] == '%' && (i + 2 >= |s| || !IsHex(s[i + 1]) || !IsHex(s[i + 2]))
  }

  /** url.PathUnescape (`query` false) and url.QueryUnescape (`query` true):
      "%XX" becomes the byte XX, and in a query '+' becomes a space. */
  function Unescape(s: string, query: bool): (r: Option<string>)
    ensures r.Some? ==> |r.value| <= |s|
    decreases |s|
  {
    if s == [] then Some([])
    else if s[0] == '%' then
      if |s| < 3 || !IsHex(s[1]) || !IsHex(s[2]) then None
      else match Unescape(s[3..], query)
        case None => None
        case Some(t) => Some([(UnHex(s[1]) * 16 + UnHex(s[2])) as char] + t)
    else match Unescape(s[1..], query)
      case None => None
      case Some(t) => Some([if query && s[0] == '+' then ' ' else s[0]] + t)
  }

  /** Decoding fails exactly when some '%' lacks its two hexadecimal digits. */
  lemma {:induction false} UnescapeFails(s: string, query: bool)
    ensures Unescape(s, query).None? <==> exists i :: 0 <= i < |s| && BadEscapeAt(s, i)
    decreases |s|
  {
    if s != [] {
      var k := if s[0] == '%' && !BadEscapeAt(s, 0) then 3 else 1;
      if !BadEscapeAt(s, 0) {
        UnescapeFails(s[k..], query);
        forall i | k <= i < |s|
          ensures BadEscapeAt(s, i) <==> BadEscapeAt(s[k..], i - k)
        {
        }
        forall i | 0 <= i < k
          ensures !BadEscapeAt(s, i)
        {
        }
        if exists i :: 0 <= i < |s| && BadEscapeAt(s, i) {
          var i :| 0 <= i < |s| && BadEscapeAt(s, i);
          assert BadEscapeAt(s[k..], i - k);
        }
        if exists i :: 0 <= i < |s[k..]| && BadEscapeAt(s[k..], i) {
          var i :| 0 <= i < |s[k..]| && BadEscapeAt(s[k..], i);
          assert BadEscapeAt(s, i + k);
        }
      }
    }
  }

  /** Text with no '%' (and, in a query, no '+') decodes to itself. */
  lemma {:induction false} UnescapeVerbatim(s: string, query: bool)
    requires '%' !in s && (query ==> '+' !in s)
    ensures Unescape(s, query) == Some(s)
    decreases |s|
  {
    if s != [] {
      assert s[0] in s;
      assert forall c :: c in s[1..] ==> c in s;
      UnescapeVerbatim(s[1..], query);
      assert s == [s[0]] + s[1..];
    }
  }

  /** Decoding works piece by piece: text that decodes on its own decodes
      the same way in front of any further text, and the whole fails exactly
      when the rest does. */
  lemma {:induction false} UnescapeAppend(a: string, b: string, query: bool)
    requires Unescape(a, query).Some?
    ensures Unescape(a + b, query) ==
              match Unescape(b, query)
              case None => None
              case Some(t) => Some(Unescape(a, query).value + t)
    decreases |a|
  {
    var ab := a + b;
    if a == [] {
      assert ab == b && Unescape(a, query) == Some([]);
      if Unescape(b, query).Some? {
        assert [] + Unescape(b, query).value == Unescape(b, query).value;
      }
    } else if a[0] == '%' {
      assert ab[0] == '%' && ab[1] == a[1] && ab[2] == a[2];
      assert ab[3..] == a[3..] + b;
      UnescapeAppend(a[3..], b, query);
      var d := (UnHex(a[1]) * 16 + UnHex(a[2])) as char;
      Prepend(d, Unescape(a[3..], query).value, Unescape(b, query));
    } else {
      assert ab[0] == a[0];
      assert ab[1..] == a[1..] + b;
      UnescapeAppend(a[1..], b, query);
      var d := if query && a[0] == '+' then ' ' else a[0];
      Prepend(d, Unescape(a[1..], query).value, Unescape(b, query));
    }
  }

  /** Putting a decoded character in front commutes with the append. */
  lemma Prepend(d: char, u: string, rest: Option<string>)
    ensures rest.Some? ==> [d] + (u + rest.value) == ([d] + u) + rest.value
  {
  }

  /** A '%'-free text followed by an escaped colon: the shape of an id
      whose separators the player percent-encoded. */
  lemma EscapedColon(a: string, b: string)
    requires '%' !in a
    ensures Unescape(b, false).Some? ==> Unescape(a + "%3A" + b, false) == Some(a + ":" + Unescape(b, false).value)
    ensures Unescape(b, false).None? ==> Unescape(a + "%3A" + b, false).None?
  {
    UnescapeVerbatim(a, false);
    ColonEscape();
    var e: string := "%3A";
    UnescapeAppend(e, b, false);
    UnescapeAppend(a, e + b, false);
    assert a + "%3A" + b == a + (e + b);
    if Unescape(b, false).Some? {
      var t := Unescape(b, false).value;
      assert a + (":" + t) == a + ":" + t;
    }
  }

  /** "%3A" is the escape of ':'. */
  lemma ColonEscape()
    ensures Unescape("%3A", false) == Some(":")
  {
    var e: string := "%3A";
    assert e[0] == '%' && e[1] == '3' && e[2] == 'A' && e[3..] == [];
    assert UnHex(e[1]) * 16 + UnHex(e[2]) == 58;
    assert [58 as char] + [] == ":";
  }

  /** An id with both colons percent-encoded decodes to the plain id. */
  lemma EscapedColonsDecoded(id: string, season: string, episode: string)
    requires '%' !in id && '%' !in season && '%' !in episode
    ensures Unescape(id + "%3A" + season + "%3A" + episode, false) == Some(id + ":" + season + ":" + episode)
  {
    UnescapeVerbatim(episode, false);
    EscapedColon(season, episode);
    EscapedColon(id, season + "%3A" + episode);
    assert id + "%3A" + season + "%3A" + episode == id + "%3A" + (season + "%3A" + episode);
    assert id + ":" + (season + ":" + episode) == id + ":" + season + ":" + episode;
  }

  function HexDigit(n: nat): (c: char)
    requires n < 16
    ensures IsHex(c) && UnHex(c) == n
  {
    if n < 10 then ('0' as int + n) as char else ('A' as int + n - 10) as char
  }

  predicate AllBytes(s: string) {
    forall i :: 0 <= i < |s| ==> s[i] as int < 256
  }

  /** Percent-encoding of every byte, the most an escaper can do. */
  function EscapeAll(s: string): (r: string)
    requires AllBytes(s)
    ensures |r| == 3 * |s|
  {
    if s == [] then []
    else ['%', HexDigit(s[0] as int / 16), HexDigit(s[0] as int % 16)] + EscapeAll(s[1..])
  }

  /** Decoding undoes percent-encoding, in both modes. */
  lemma {:induction false} UnescapeEscapeAll(s: string, query: bool)
    requires AllBytes(s)
    ensures Unescape(EscapeAll(s), query) == Some(s)
    decreases |s|
  {
    if s != [] {
      UnescapeEscapeAll(s[1..], query);
      var e := EscapeAll(s);
      assert e[3..] == EscapeAll(s[1..]);
      assert (UnHex(e[1]) * 16 + UnHex(e[2])) as char == s[0];
      assert s == [s[0]] + s[1..];
    }
  }

  // ---- url.ParseQuery ------------------------------------------------------------

  /** strings.Cut: the text before the first separator and the text after it. */
  function Cut(s: string, sep: char): (r: (string, string))
    ensures sep !in r.0
    ensures sep in s ==> r.0 + [sep] + r.1 == s
    ensures sep !in s ==> r == (s, [])
    decreases |s|
  {
    if s == [] then ([], [])
    else if s[0] == sep then ([], s[1..])
    else
      var (a, b) := Cut(s[1..], sep);
      assert s == [s[0]] + s[1..];
      ([s[0]] + a, b)
  }

  datatype Param = Param(key: string, value: string)

  /** A segment the parser accepts: no ';', and either empty or with both
      halves of its first '=' cut decoding. */
  predicate SegmentParses(seg: string) {
    ';' !in seg
    && (seg == [] || (Unescape(Cut(seg, '=').0, true).Some? && Unescape(Cut(seg, '=').1, true).Some?))
  }

  /** The '&'-separated segments in order: a segment holding ';' is an error,
      an empty one is skipped, and the others are cut at the first '=' and
      both halves query-decoded. Go keeps parsing after an error but reports
      it, and the handler refuses the request on any error, so an error here
      ends the parse. */
  function ParseSegments(segs: seq<string>): (r: Option<seq<Param>>)
    ensures (exists i :: 0 <= i < |segs| && ';' in segs[i]) ==> r.None?
    // the parse fails exactly when some segment holds ';' or a bad escape
    ensures r.Some? <==> forall i :: 0 <= i < |segs| ==> SegmentParses(segs[i])
    ensures r.Some? ==> |r.value| <= |segs|
    decreases |segs|
  {
    if segs == [] then Some([])
    else
      var tail := ParseSegments(segs[1..]);
      var seg := segs[0];
      assert forall i :: 1 <= i < |segs| ==> segs[i] == segs[1..][i - 1];
      if ';' in seg then None
      else if seg == [] then tail
      else
        var (k, v) := Cut(seg, '=');
        match (Unescape(k, true), Unescape(v, true), tail)
        case (Some(key), Some(value), Some(ps)) => Some([Param(key, value)] + ps)
        case _ => None
  }

  /** url.ParseQuery: the pairs of the '&'-separated segments, or an error. */
  function ParseQuery(q: string): (r: Option<seq<Param>>)
    ensures ';' in q ==> r.None?
    ensures r.Some? <==> forall i :: 0 <= i < |Split(q, '&')| ==> SegmentParses(Split(q, '&')[i])
  {
    SemicolonInSomePart(q, ';', '&');
    ParseSegments(Split(q, '&'))
  }

  /** Text a query carries as it is: nothing to decode and no separator. */
  predicate PlainText(s: string) {
    '%' !in s && '+' !in s && '&' !in s && ';' !in s
  }

  /** A pair whose `key=value` rendering parses back to it. */
  predicate PlainParam(p: Param) {
    p.key != [] && '=' !in p.key && PlainText(p.key) && PlainText(p.value)
  }

  /** The `key=value` segment of a pair. */
  function Encode(p: Param): string {
    p.key + "=" + p.value
  }

  function EncodeAll(ps: seq<Param>): (segs: seq<string>)
    ensures |segs| == |ps|
  {
    if ps == [] then [] else [Encode(ps[0])] + EncodeAll(ps[1..])
  }

  /** A plain pair's segment holds no '&' or ';', is not empty, and cuts and
      decodes back to the pair. */
  lemma EncodePlain(p: Param)
    requires PlainParam(p)
    ensures Encode(p) != [] && '&' !in Encode(p) && ';' !in Encode(p)
    ensures Cut(Encode(p), '=') == (p.key, p.value)
    ensures Unescape(p.key, true) == Some(p.key) && Unescape(p.value, true) == Some(p.value)
  {
    var q := Encode(p);
    assert forall i :: 0 <= i < |q| ==> q[i] in p.key || q[i] == '=' || q[i] in p.value;
    CutAfter(p.key, p.value, '=');
    assert q == p.key + ['='] + p.value;
    UnescapeVerbatim(p.key, true);
    UnescapeVerbatim(p.value, true);
  }

  /** The segments of plain pairs parse back to exactly those pairs. */
  lemma {:induction false} ParseSegmentsEncoded(ps: seq<Param>)
    requires forall i :: 0 <= i < |ps| ==> PlainParam(ps[i])
    ensures ParseSegments(EncodeAll(ps)) == Some(ps)
    decreases |ps|
  {
    if ps != [] {
      var segs := EncodeAll(ps);
      assert segs[0] == Encode(ps[0]) && segs[1..] == EncodeAll(ps[1..]);
      ParseSegmentsEncoded(ps[1..]);
      EncodePlain(ps[0]);
      assert ParseSegments(segs) == Some([Param(ps[0].key, ps[0].value)] + ps[1..]);
      assert ps == [ps[0]] + ps[1..];
    }
  }

  /** url.ParseQuery inverts the '&'-join of plain `key=value` pairs: every
      pair comes back, in order, however many there are, so `Get` finds the
      value a query gives for a key wherever that pair stands. */
  lemma QueryRoundTrip(ps: seq<Param>)
    requires |ps| >= 1
    requires forall i :: 0 <= i < |ps| ==> PlainParam(ps[i])
    ensures ParseQuery(Join(EncodeAll(ps), '&')) == Some(ps)
    ensures Get(ParseQuery(Join(EncodeAll(ps), '&')).value, "filename") == Get(ps, "filename")
  {
    var segs := EncodeAll(ps);
    forall i | 0 <= i < |segs|
      ensures '&' !in segs[i]
    {
      EncodedAt(ps, i);
      EncodePlain(ps[i]);
    }
    SplitJoin(segs, '&');
    ParseSegmentsEncoded(ps);
  }

  lemma {:induction false} EncodedAt(ps: seq<Param>, i: nat)
    requires i < |ps|
    ensures EncodeAll(ps)[i] == Encode(ps[i])
    decreases i
  {
    if i > 0 {
      EncodedAt(ps[1..], i - 1);
    }
  }

  /** The file name is found behind another pair, as in
      "videoSize=1&filename=x". */
  lemma FilenameAfterOtherParam(other: Param, filename: string)
    requires PlainParam(other) && other.key != "filename"
    requires PlainText(filename)
    ensures ParseQuery(Encode(other) + "&filename=" + filename)
         == Some([other, Param("filename", filename)])
    ensures Get(ParseQuery(Encode(other) + "&filename=" + filename).value, "filename") == filename
  {
    var f := Param("filename", filename);
    var key := "filename";
    assert forall i :: 0 <= i < |key| ==> IsLower(key[i]);
    var ps := [other, f];
    assert EncodeAll(ps) == [Encode(other), Encode(f)] by {
      assert ps[1..] == [f] && [f][1..] == [];
    }
    assert Join([Encode(other), Encode(f)], '&') == Encode(other) + "&" + Encode(f) by {
      assert [Encode(other), Encode(f)][1..] == [Encode(f)];
    }
    assert Encode(other) + "&" + Encode(f) == Encode(other) + "&filename=" + filename;
    QueryRoundTrip(ps);
  }

  /** The empty query has no pairs. */
  lemma EmptyQuery()
    ensures ParseQuery("") == Some([])
  {
    assert Split("", '&') == [[]];
  }

  /** A character other than the separator lands in one of the pieces. */
  lemma {:induction false} SemicolonInSomePart(s: string, c: char, sep: char)
    requires c != sep
    ensures c in s ==> exists i :: 0 <= i < |Split(s, sep)| && c in Split(s, sep)[i]
    decreases |s|
  {
    if s != [] && c in s {
      var rest := Split(s[1..], sep);
      if s[0] == c {
        assert c in Split(s, sep)[0];
      } else {
        assert c in s[1..] by { assert s == [s[0]] + s[1..]; }
        SemicolonInSomePart(s[1..], c, sep);
        var i :| 0 <= i < |rest| && c in rest[i];
        if s[0] == sep {
          assert Split(s, sep)[i + 1] == rest[i];
        } else if i == 0 {
          assert c in Split(s, sep)[0];
        } else {
          assert Split(s, sep)[i] == rest[i];
        }
      }
    }
  }

  /** url.Values.Get: the first value given for the key, or "". */
  function Get(ps: seq<Param>, key: string): (v: string)
    ensures v != "" ==> exists i :: 0 <= i < |ps| && ps[i] == Param(key, v)
    // the value of the first pair with the key
    ensures forall i :: 0 <= i < |ps| && ps[i].key == key && (forall j :: 0 <= j < i ==> ps[j].key != key)
              ==> v == ps[i].value
    ensures (forall i :: 0 <= i < |ps| ==> ps[i].key != key) ==> v == ""
  {
    if ps == [] then ""
    else if ps[0].key == key then ps[0].value
    else
      var v := Get(ps[1..], key);
      assert forall i :: 1 <= i < |ps| ==> ps[i] == ps[1..][i - 1];
      assert v != "" ==> exists i :: 1 <= i < |ps| && ps[i] == Param(key, v) by {
        if v != "" {
          var k :| 0 <= k < |ps[1..]| && ps[1..][k] == Param(key, v);
          assert ps[k + 1] == Param(key, v);
        }
      }
      v
  }

  /** A query of one `key=value` pair whose text needs no decoding. */
  lemma SingleParamQuery(key: string, value: string)
    requires key != [] && '=' !in key
    requires '%' !in key && '+' !in key && '&' !in key && ';' !in key
    requires '%' !in value && '+' !in value && '&' !in value && ';' !in value
    ensures ParseQuery(key + "=" + value) == Some([Param(key, value)])
  {
    var q := key + "=" + value;
    assert '&' !in q && ';' !in q by {
      assert forall i :: 0 <= i < |q| ==> q[i] in key || q[i] == '=' || q[i] in value;
    }
    SplitPrepend(q, [], '&');
    assert q + [] == q;
    assert Split(q, '&') == [q];
    assert ParseQuery(q) == ParseSegments([q]);
    CutAfter(key, value, '=');
    assert q == key + ['='] + value;
    UnescapeVerbatim(key, true);
    UnescapeVerbatim(value, true);
    assert [q][1..] == [] && ParseSegments([]) == Some([]);
    assert Cut(q, '=') == (key, value);
    assert q != [] && ';' !in q;
    assert ParseSegments([q]) == Some([Param(key, value)] + []);
    assert [Param(key, value)] + [] == [Param(key, value)];
  }

  /** A query of just the `filename` pair yields the name. */
  lemma FilenameQuery(filename: string)
    requires '%' !in filename && '+' !in filename && '&' !in filename && ';' !in filename
    ensures ParseQuery("filename=" + filename) == Some([Param("filename", filename)])
    ensures Get([Param("filename", filename)], "filename") == filename
  {
    var key := "filename";
    assert forall i :: 0 <= i < |key| ==> IsLower(key[i]);
    SingleParamQuery(key, filename);
    assert key + "=" + filename == "filename=" + filename;
  }

  lemma {:induction false} CutAfter(p: string, t: string, sep: char)
    requires sep !in p
    ensures Cut(p + [sep] + t, sep) == (p, t)
    decreases |p|
  {
    if p != [] {
      CutAfter(p[1..], t, sep);
      assert (p + [sep] + t)[1..] == p[1..] + [sep] + t;
      assert [p[0]] + p[1..] == p;
    }
  }

  // ---- SubtitlesHandler -------------------------------------------------------------

  /** What the handler asks the service for. */
  datatype Lookup = Lookup(titleType: string, imdbId: string, season: int, episode: int, filename: string)

  datatype SubtitleRef = SubtitleRef(id: string, lang: string, url: string)

  /** Status, the JSON body's subtitles, and the Cache-Control max-age (0 when
      the header is not set). */
  datatype SubtitlesResponse = SubtitlesResponse(status: int, subtitles: seq<SubtitleRef>, maxAge: int)

  /** The status recorded when the request panics below the handler: net/http recovers the
      panic and closes the connection without writing a response. */
  const NoReply: int := 0

  const LongMaxAge: int := 1296000
  const ShortMaxAge: int := 120

  /** The request checks, in the handler's order; every failure is a 400. The
      season and the episode are parsed only when the ID has exactly three
      ':'-separated parts, and a part that does not parse leaves strconv.Atoi's
      value (0, or the clamp on overflow) without failing the request. */
  function ParseLookup(titleType: string, rawId: string, wildcard: string): (r: Option<Lookup>)
    ensures Validator.ValidateSubtitleType(titleType).Rejected? ==> r.None?
    ensures Unescape(rawId, false).None? ==> r.None?
    ensures ParseQuery(wildcard).None? ==> r.None?
    ensures r.Some? ==>
              r.value.titleType == titleType
              && Validator.ValidateImdbTitleId(r.value.imdbId).Accepted?
              && r.value.filename != ""
              && r.value.filename == Get(ParseQuery(wildcard).value, "filename")
              && r.value.imdbId == Split(Unescape(rawId, false).value, ':')[0]
    // a request passing every check is accepted
    ensures r.Some? <==>
              Validator.ValidateSubtitleType(titleType).Accepted?
              && Unescape(rawId, false).Some?
              && Validator.ValidateImdbTitleId(Split(Unescape(rawId, false).value, ':')[0]).Accepted?
              && ParseQuery(wildcard).Some?
              && Get(ParseQuery(wildcard).value, "filename") != ""
    // season and episode come from exactly three parts; a bad number is not a rejection
    ensures r.Some? && |Split(Unescape(rawId, false).value, ':')| != 3 ==> r.value.season == 0 && r.value.episode == 0
    ensures r.Some? && |Split(Unescape(rawId, false).value, ':')| == 3 ==>
              var parts := Split(Unescape(rawId, false).value, ':');
              r.value.season == AtoiValue(Atoi(parts[1])) && r.value.episode == AtoiValue(Atoi(parts[2]))
  {
    if Validator.ValidateSubtitleType(titleType).Rejected? then None
    else match Unescape(rawId, false)
      case None => None
      case Some(id) =>
        var parts := Split(id, ':');
        if Validator.ValidateImdbTitleId(parts[0]).Rejected? then None
        else
          var season := if |parts| == 3 then AtoiValue(Atoi(parts[1])) else 0;
          var episode := if |parts| == 3 then AtoiValue(Atoi(parts[2])) else 0;
          match ParseQuery(wildcard)
          case None => None
          case Some(ps) =>
            var filename := Get(ps, "filename");
            if filename == "" then None
            else Some(Lookup(titleType, parts[0], season, episode, filename))
  }

  function SubtitlesHandler(titleType: string, rawId: string, wildcard: string, host: string,
                            currentYear: int, service: Lookup -> Result<Service.SearchResult>): (r: SubtitlesResponse)
    ensures r.status in {NoReply, 200, 400, 500}
    ensures r.status == 400 <==> ParseLookup(titleType, rawId, wildcard).None?
    ensures r.status == 500 <==>
              ParseLookup(titleType, rawId, wildcard).Some? && service(ParseLookup(titleType, rawId, wildcard).value).Err?
              && service(ParseLookup(titleType, rawId, wildcard).value).error != Aborted
    // a panic below the handler leaves the request without a response
    ensures r.status == NoReply <==>
              ParseLookup(titleType, rawId, wildcard).Some?
              && service(ParseLookup(titleType, rawId, wildcard).value) == Err(Aborted)
    ensures r.status != 200 ==> r.subtitles == [] && r.maxAge == 0
    // one entry per ID, in the service's order, each pointing at the download route
    ensures r.status == 200 ==>
              var found := service(ParseLookup(titleType, rawId, wildcard).value).value;
              |r.subtitles| == |found.ids|
              && (forall i :: 0 <= i < |found.ids| ==>
                    r.subtitles[i] == SubtitleRef(found.ids[i], found.lang, host + "/subdivx/" + found.ids[i]))
              // long-lived only for a title older than last year with more than one subtitle
              && (r.maxAge == LongMaxAge <==> found.year < currentYear - 1 && |found.ids| > 1)
              && (r.maxAge == ShortMaxAge <==> !(found.year < currentYear - 1 && |found.ids| > 1))
  {
    match ParseLookup(titleType, rawId, wildcard)
    case None => SubtitlesResponse(400, [], 0)
    case Some(lookup) => Respond(service(lookup), host, currentYear)
  }

  /** The response to a request that passed its checks, from what the service
      answered. */
  function Respond(answer: Result<Service.SearchResult>, host: string, currentYear: int): (r: SubtitlesResponse)
    ensures answer.Err? && answer.error != Aborted <==> r.status == 500
    ensures answer == Err(Aborted) <==> r.status == NoReply
    ensures answer.Ok? <==> r.status == 200
    ensures r.status != 200 ==> r.subtitles == [] && r.maxAge == 0
    ensures r.status == 200 ==>
              var found := answer.value;
              |r.subtitles| == |found.ids|
              && (forall i :: 0 <= i < |found.ids| ==>
                    r.subtitles[i] == SubtitleRef(found.ids[i], found.lang, host + "/subdivx/" + found.ids[i]))
              && (r.maxAge == LongMaxAge <==> found.year < currentYear - 1 && |found.ids| > 1)
              && (r.maxAge == ShortMaxAge <==> !(found.year < currentYear - 1 && |found.ids| > 1))
  {
    match answer
    case Err(Aborted) => SubtitlesResponse(NoReply, [], 0)
    case Err(_) => SubtitlesResponse(500, [], 0)
    case Ok(found) =>
      var refs := seq(|found.ids|, i requires 0 <= i < |found.ids| =>
                        SubtitleRef(found.ids[i], found.lang, host + "/subdivx/" + found.ids[i]));
      var maxAge := if found.year < currentYear - 1 && |found.ids| > 1 then LongMaxAge else ShortMaxAge;
      SubtitlesResponse(200, refs, maxAge)
  }

  /** An ID of three ':'-separated parts reaches the service with the first
      part as the IMDb ID and strconv.Atoi's values of the other two, whether
      or not they are numbers. */
  lemma ThreePartRequestParses(titleType: string, imdbId: string, s: string, e: string, filename: string)
    requires titleType in {"movie", "series"}
    requires Validator.ValidateImdbTitleId(imdbId).Accepted?
    requires '%' !in s && ':' !in s && '%' !in e && ':' !in e
    requires filename != "" && '%' !in filename && '+' !in filename && '&' !in filename && ';' !in filename
    ensures ParseLookup(titleType, imdbId + ":" + s + ":" + e, "filename=" + filename)
         == Some(Lookup(titleType, imdbId, AtoiValue(Atoi(s)), AtoiValue(Atoi(e)), filename))
  {
    ImdbIdPlain(imdbId);
    var raw := imdbId + ":" + s + ":" + e;
    assert [imdbId, s, e][1..] == [s, e] && [s, e][1..] == [e];
    assert Join([s, e], ':') == s + [':'] + e;
    assert raw == Join([imdbId, s, e], ':');
    assert '%' !in raw by {
      assert forall i :: 0 <= i < |raw| ==> raw[i] in imdbId || raw[i] == ':' || raw[i] in s || raw[i] in e;
    }
    UnescapeVerbatim(raw, false);
    SplitJoin([imdbId, s, e], ':');
    FilenameQuery(filename);
  }

  /** Stremio's request for an episode, "tt…:season:episode" with a
      `filename=` query, reaches the service with exactly those values. */
  lemma EpisodeRequestParses(titleType: string, imdbId: string, season: int, episode: int, filename: string)
    requires titleType in {"movie", "series"}
    requires Validator.ValidateImdbTitleId(imdbId).Accepted?
    requires MinInt64 <= season <= MaxInt64 && MinInt64 <= episode <= MaxInt64
    requires filename != "" && '%' !in filename && '+' !in filename && '&' !in filename && ';' !in filename
    ensures ParseLookup(titleType, imdbId + ":" + Itoa(season) + ":" + Itoa(episode), "filename=" + filename)
         == Some(Lookup(titleType, imdbId, season, episode, filename))
  {
    ItoaPlain(season);
    ItoaPlain(episode);
    ThreePartRequestParses(titleType, imdbId, Itoa(season), Itoa(episode), filename);
    AtoiItoa(season);
    AtoiItoa(episode);
  }

  /** An id whose colons arrive percent-encoded, as "tt…%3As%3Ae", is
      decoded before the split and parses like the plain one. */
  lemma EscapedRequestParses(titleType: string, imdbId: string, s: string, e: string, wildcard: string)
    requires '%' !in imdbId && '%' !in s && '%' !in e
    ensures ParseLookup(titleType, imdbId + "%3A" + s + "%3A" + e, wildcard)
         == ParseLookup(titleType, imdbId + ":" + s + ":" + e, wildcard)
  {
    var raw := imdbId + ":" + s + ":" + e;
    assert '%' !in raw by {
      assert forall i :: 0 <= i < |raw| ==> raw[i] in imdbId || raw[i] == ':' || raw[i] in s || raw[i] in e;
    }
    UnescapeVerbatim(raw, false);
    EscapedColonsDecoded(imdbId, s, e);
  }

  /** A season or episode that is not a number is logged, not rejected: the
      request goes on with 0 in its place. */
  lemma NonNumericPartsAccepted(titleType: string, imdbId: string, filename: string)
    requires titleType in {"movie", "series"}
    requires Validator.ValidateImdbTitleId(imdbId).Accepted?
    requires filename != "" && '%' !in filename && '+' !in filename && '&' !in filename && ';' !in filename
    ensures ParseLookup(titleType, imdbId + ":x:y", "filename=" + filename)
         == Some(Lookup(titleType, imdbId, 0, 0, filename))
  {
    assert imdbId + ":x:y" == imdbId + ":" + "x" + ":" + "y";
    assert Atoi("x") == SyntaxError by { assert ParseUint("x") == USyntax; }
    assert Atoi("y") == SyntaxError by { assert ParseUint("y") == USyntax; }
    ThreePartRequestParses(titleType, imdbId, "x", "y", filename);
  }

  /** A movie request carries the bare IMDb ID; season and episode are 0. */
  lemma MovieRequestParses(titleType: string, imdbId: string, filename: string)
    requires titleType in {"movie", "series"}
    requires Validator.ValidateImdbTitleId(imdbId).Accepted?
    requires filename != "" && '%' !in filename && '+' !in filename && '&' !in filename && ';' !in filename
    ensures ParseLookup(titleType, imdbId, "filename=" + filename) == Some(Lookup(titleType, imdbId, 0, 0, filename))
  {
    ImdbIdPlain(imdbId);
    UnescapeVerbatim(imdbId, false);
    SplitJoin([imdbId], ':');
    FilenameQuery(filename);
  }

  /** Rendered integers hold only digits and a minus sign. */
  lemma ItoaPlain(n: int)
    ensures '%' !in Itoa(n) && ':' !in Itoa(n)
  {
    var d := NatToString(if n < 0 then -n else n);
    assert forall i :: 0 <= i < |d| ==> IsDigit(d[i]);
  }

  lemma ImdbIdPlain(id: string)
    requires Validator.ValidateImdbTitleId(id).Accepted?
    ensures '%' !in id && ':' !in id
  {
    var digits :| id == "tt" + digits && |digits| > 0 && AllDigits(digits);
    assert forall i :: 2 <= i < |id| ==> IsDigit(id[i]);
  }

  // ---- SubdivxSubtitleHandler ----------------------------------------------------------

  datatype DownloadResponse = DownloadResponse(status: int, body: seq<Byte>, fetched: bool)

  /** Served with a 15-day max-age. Bytes detected as ISO-8859-1 go through
      the ISO-8859-1 decoder; UTF-8 and everything else is written as it is. */
  function SubdivxSubtitleHandler(id: string, fetch: string -> Result<seq<Byte>>,
                                  detect: seq<Byte> -> Service.Charset,
                                  iso88591: seq<Byte> -> seq<Byte>): (r: DownloadResponse)
    ensures Validator.ValidateSubdivxSubtitleId(id).Rejected? ==> r == DownloadResponse(400, [], false)
    ensures Validator.ValidateSubdivxSubtitleId(id).Accepted? ==> r.fetched
    ensures r.status == 500 <==> Validator.ValidateSubdivxSubtitleId(id).Accepted? && fetch(id).Err?
    ensures r.status == 200 ==> fetch(id).Ok? && r.fetched
    ensures r.status == 200 && detect(fetch(id).value) != Service.Iso88591 ==> r.body == fetch(id).value
    ensures r.status == 200 && detect(fetch(id).value) == Service.Iso88591 ==> r.body == iso88591(fetch(id).value)
  {
    if Validator.ValidateSubdivxSubtitleId(id).Rejected? then DownloadResponse(400, [], false)
    else match fetch(id)
      case Err(_) => DownloadResponse(500, [], true)
      case Ok(data) =>
        var body := match detect(data)
                    case Utf8 => data
                    case Iso88591 => iso88591(data)
                    case _ => data;
        DownloadResponse(200, body, true)
  }

  /** Every ID a subtitles response lists, when the service renders a
      positive Subdivx ID, is accepted by the download endpoint. */
  lemma ListedIdsDownloadable(n: int, fetch: string -> Result<seq<Byte>>,
                              detect: seq<Byte> -> Service.Charset, iso88591: seq<Byte> -> seq<Byte>)
    requires 0 < n <= MaxInt64
    ensures SubdivxSubtitleHandler(Itoa(n), fetch, detect, iso88591).fetched
    ensures fetch(Itoa(n)).Ok? ==> SubdivxSubtitleHandler(Itoa(n), fetch, detect, iso88591).status == 200
  {
    Validator.RenderedIdsValidate(n);
  }
}

=== FILE: archive.dfy ===
/** The download half of the Subdivx client (pkg/subdivx/subdivx.go,
    GetSubtitle): cap the download, recognise the container by its magic
    bytes, and pick the subtitle out of it. Decompression is not modelled:
    each container kind is read by an oracle that lists its entries. */
module Archive {
  import opened Results
  import opened Ascii

  // ---- Download ------------------------------------------------------------

  /** io.LimitReader(res.Body, 200*1024): longer bodies are cut, silently. */
  const MaxArchiveSize: nat := 200 * 1024

  datatype HttpReply = HttpReply(status: int, body: seq<Byte>)

  /** The archive bytes the client keeps from a download reply, or the error
      that replaced them. */
  function Download(reply: Result<HttpReply>): (r: Result<seq<Byte>>)
    ensures reply.Err? ==> r == Err(reply.error)
    ensures reply.Ok? && reply.value.status != 200 ==> r == Err(BadStatus(reply.value.status))
    ensures r.Ok? <==> reply.Ok? && reply.value.status == 200
    ensures r.Ok? ==> |r.value| <= MaxArchiveSize && HasPrefix(reply.value.body, r.value)
    ensures r.Ok? && |reply.value.body| <= MaxArchiveSize ==> r.value == reply.value.body
  {
    var res :- reply;
    if res.status != 200 then Err(BadStatus(res.status))
    else if |res.body| <= MaxArchiveSize then Ok(res.body)
    else Ok(res.body[..MaxArchiveSize])
  }

  // ---- Magic bytes -----------------------------------------------------------

  const ZipMagic: seq<Byte> := [0x50, 0x4B, 0x03, 0x04]               // "PK\x03\x04"
  const Rar4Magic: seq<Byte> := [0x52, 0x61, 0x72, 0x21, 0x1A, 0x07, 0x00]        // RAR 1.5 to 4.0
  const Rar5Magic: seq<Byte> := [0x52, 0x61, 0x72, 0x21, 0x1A, 0x07, 0x01, 0x00]  // RAR 5.0
  const GzipMagic: seq<Byte> := [0x1F, 0x8B]

  datatype Format = Zip | Rar | Gzip | Unknown

  predicate IsZip(data: seq<Byte>) { HasPrefix(data, ZipMagic) }

  predicate IsRar(data: seq<Byte>) { HasPrefix(data, Rar4Magic) || HasPrefix(data, Rar5Magic) }

  predicate IsGzip(data: seq<Byte>) { HasPrefix(data, GzipMagic) }

  /** GetSubtitle tests ZIP, then RAR, then GZIP; the signatures start with
      different bytes, so at most one holds and the order does not matter. */
  function Classify(data: seq<Byte>): (f: Format)
    ensures f == Zip <==> IsZip(data)
    ensures f == Rar <==> IsRar(data)
    ensures f == Gzip <==> IsGzip(data)
    ensures f == Unknown <==> !IsZip(data) && !IsRar(data) && !IsGzip(data)
  {
    SignaturesDisjoint(data);
    if IsZip(data) then Zip
    else if IsRar(data) then Rar
    else if IsGzip(data) then Gzip
    else Unknown
  }

  // ---- Subtitle entries --------------------------------------------------------

  /** A container entry: its name, and its contents unless they could not be
      read. */
  datatype Entry = Entry(name: string, data: Option<seq<Byte>>)

  datatype SubtitleContents = SubtitleContents(name: string, data: seq<Byte>)

  /** Only names ending in ".srt", in any letter case, are subtitles. */
  predicate IsSubtitleName(name: string) {
    HasSuffix(Lower(name), ".srt")
  }

  /** Position of the first subtitle entry, if there is one. */
  function FirstSubtitle(entries: seq<Entry>): (r: Option<nat>)
    ensures r.Some? ==> r.value < |entries| && IsSubtitleName(entries[r.value].name)
    ensures r.Some? ==> forall j :: 0 <= j < r.value ==> !IsSubtitleName(entries[j].name)
    ensures r.None? ==> forall j :: 0 <= j < |entries| ==> !IsSubtitleName(entries[j].name)
  {
    if entries == [] then None
    else if IsSubtitleName(entries[0].name) then Some(0)
    else match FirstSubtitle(entries[1..])
      case None => None
      case Some(k) => Some(k + 1)
  }

  /** The RAR reader yields headers one at a time and may fail part way. */
  datatype RarStream = RarStream(headers: seq<Entry>, broken: bool)

  /** Readers for the three container kinds; `None` when the container cannot
      be opened. */
  datatype Unpackers = Unpackers(
    unzip: seq<Byte> -> Option<seq<Entry>>,
    unrar: seq<Byte> -> Option<RarStream>,
    gunzip: seq<Byte> -> Option<Entry>)

  /** The chosen entry's contents, or InvalidArchive when they cannot be read. */
  function ReadEntry(e: Entry): (r: Result<SubtitleContents>)
    ensures r.Ok? <==> e.data.Some?
    ensures r.Ok? ==> r.value == SubtitleContents(e.name, e.data.value)
    ensures r.Err? ==> r == Err(InvalidArchive)
  {
    if e.data.None? then Err(InvalidArchive) else Ok(SubtitleContents(e.name, e.data.value))
  }

  /** ZIP: the first subtitle entry in directory order. */
  function FromZip(entries: seq<Entry>): (r: Result<SubtitleContents>)
    ensures r.Ok? ==> exists k :: FirstSubtitle(entries) == Some(k) && r.value.name == entries[k].name
    ensures FirstSubtitle(entries).None? ==> r == Err(NoSubtitleInArchive)
    ensures FirstSubtitle(entries).Some? ==> r == ReadEntry(entries[FirstSubtitle(entries).value])
  {
    match FirstSubtitle(entries)
    case None => Err(NoSubtitleInArchive)
    case Some(k) => ReadEntry(entries[k])
  }

  /** RAR: headers are read until the first subtitle; a broken stream is only
      noticed when no subtitle comes before the break. */
  function FromRar(stream: RarStream): (r: Result<SubtitleContents>)
    ensures r.Ok? ==> exists k :: FirstSubtitle(stream.headers) == Some(k) && r.value.name == stream.headers[k].name
    ensures FirstSubtitle(stream.headers).None? ==>
              r == (if stream.broken then Err(InvalidArchive) else Err(NoSubtitleInArchive))
    ensures FirstSubtitle(stream.headers).Some? ==>
              r == ReadEntry(stream.headers[FirstSubtitle(stream.headers).value])
  {
    match FirstSubtitle(stream.headers)
    case Some(k) => ReadEntry(stream.headers[k])
    case None => if stream.broken then Err(InvalidArchive) else Err(NoSubtitleInArchive)
  }

  /** Unpack a downloaded archive and return its subtitle. */
  function Extract(archive: seq<Byte>, u: Unpackers): (r: Result<SubtitleContents>)
    ensures |archive| < 4 ==> r == Err(ArchiveTooShort)
    ensures |archive| >= 4 && Classify(archive) == Unknown ==> r == Err(UnknownArchiveFormat)
    ensures r.Ok? ==> |archive| >= 4 && Classify(archive) != Unknown
    // each recognised container goes to its own reader; one that cannot be
    // opened is an invalid archive
    ensures |archive| >= 4 && IsZip(archive) ==>
              r == (if u.unzip(archive).None? then Err(InvalidArchive) else FromZip(u.unzip(archive).value))
    ensures |archive| >= 4 && IsRar(archive) ==>
              r == (if u.unrar(archive).None? then Err(InvalidArchive) else FromRar(u.unrar(archive).value))
    ensures |archive| >= 4 && IsGzip(archive) ==>
              r == (if u.gunzip(archive).None? then Err(InvalidArchive) else ReadEntry(u.gunzip(archive).value))
  {
    if |archive| < 4 then Err(ArchiveTooShort)
    else match Classify(archive)
      case Zip =>
        (match u.unzip(archive)
         case None => Err(InvalidArchive)
         case Some(entries) => FromZip(entries))
      case Rar =>
        (match u.unrar(archive)
         case None => Err(InvalidArchive)
         case Some(stream) => FromRar(stream))
      case Gzip =>
        (match u.gunzip(archive)
         case None => Err(InvalidArchive)
         case Some(e) => ReadEntry(e))
      case Unknown => Err(UnknownArchiveFormat)
  }

  /** GetSubtitle without the transport: download, then extract. */
  function GetSubtitle(reply: Result<HttpReply>, u: Unpackers): (r: Result<SubtitleContents>)
    ensures reply.Ok? && reply.value.status != 200 ==> r == Err(BadStatus(reply.value.status))
    ensures reply.Err? ==> r == Err(reply.error)
    ensures r.Ok? ==> Download(reply).Ok?
    ensures Download(reply).Ok? ==> r == Extract(Download(reply).value, u)
  {
    var archive :- Download(reply);
    Extract(archive, u)
  }

  // ---- Properties ---------------------------------------------------------------

  /** The magic-byte signatures are pairwise incompatible. */
  lemma SignaturesDisjoint(data: seq<Byte>)
    ensures !(IsZip(data) && IsRar(data))
    ensures !(IsZip(data) && IsGzip(data))
    ensures !(IsRar(data) && IsGzip(data))
  {
    if IsZip(data) { assert data[0] == ZipMagic[0]; }
    if IsRar(data) {
      if HasPrefix(data, Rar4Magic) { assert data[0] == Rar4Magic[0]; }
      else { assert data[0] == Rar5Magic[0]; }
    }
    if IsGzip(data) { assert data[0] == GzipMagic[0]; }
  }

  /** A ZIP or RAR archive yields the first entry whose name ends in ".srt",
      and only that one: what follows it is never looked at. */
  lemma FirstSubtitleWins(before: seq<Entry>, chosen: Entry, after: seq<Entry>)
    requires forall j :: 0 <= j < |before| ==> !IsSubtitleName(before[j].name)
    requires IsSubtitleName(chosen.name) && chosen.data.Some?
    ensures FromZip(before + [chosen] + after) == Ok(SubtitleContents(chosen.name, chosen.data.value))
    ensures forall broken :: FromRar(RarStream(before + [chosen] + after, broken))
                          == Ok(SubtitleContents(chosen.name, chosen.data.value))
  {
    var es := before + [chosen] + after;
    assert es[|before|] == chosen;
    assert forall j :: 0 <= j < |before| ==> es[j] == before[j];
  }

  /** A downloaded ZIP or RAR archive whose first ".srt" entry is readable
      yields that entry, whatever comes after it. */
  lemma ArchiveSubtitleExtracted(reply: Result<HttpReply>, u: Unpackers,
                                 before: seq<Entry>, chosen: Entry, after: seq<Entry>)
    requires Download(reply).Ok? && |Download(reply).value| >= 4
    requires var archive := Download(reply).value;
             (IsZip(archive) && u.unzip(archive) == Some(before + [chosen] + after))
             || (IsRar(archive) && u.unrar(archive).Some? && u.unrar(archive).value.headers == before + [chosen] + after)
    requires forall j :: 0 <= j < |before| ==> !IsSubtitleName(before[j].name)
    requires IsSubtitleName(chosen.name) && chosen.data.Some?
    ensures GetSubtitle(reply, u) == Ok(SubtitleContents(chosen.name, chosen.data.value))
  {
    var archive := Download(reply).value;
    SignaturesDisjoint(archive);
    FirstSubtitleWins(before, chosen, after);
    if IsRar(archive) {
      var stream := u.unrar(archive).value;
      assert stream == RarStream(before + [chosen] + after, stream.broken);
    }
  }

  /** Archives of two or three bytes are refused as too short, even when they
      carry the two-byte GZIP signature. */
  lemma ShortGzipRefused(data: seq<Byte>, u: Unpackers)
    requires IsGzip(data) && |data| < 4
    ensures Extract(data, u) == Err(ArchiveTooShort)
  {
  }

  /** GZIP applies no name filter: the stream comes back under its header
      name, whatever that is. */
  lemma GzipPassthrough(archive: seq<Byte>, u: Unpackers, e: Entry)
    requires |archive| >= 4 && IsGzip(archive)
    requires u.gunzip(archive) == Some(e) && e.data.Some?
    ensures Extract(archive, u) == Ok(SubtitleContents(e.name, e.data.value))
  {
    SignaturesDisjoint(archive);
  }

  /** Only the first 200 KiB of a download reach the unpackers. */
  lemma OversizedDownloadTruncated(body: seq<Byte>, u: Unpackers)
    requires |body| > MaxArchiveSize
    ensures GetSubtitle(Ok(HttpReply(200, body)), u) == Extract(body[..MaxArchiveSize], u)
  {
  }

  /** Names ending in ".srt" in any letter case are accepted; other subtitle
      formats are not. */
  lemma SubtitleNameExamples()
    ensures IsSubtitleName("subtitle.srt")
    ensures IsSubtitleName("Movie.SRT")
    ensures !IsSubtitleName("movie.sub")
    ensures !IsSubtitleName("movie.ass")
    ensures !IsSubtitleName("srt")
  {
    assert Lower("subtitle.srt")[8..] == ".srt";
    assert Lower("Movie.SRT")[5..] == ".srt";
    assert Lower("movie.sub")[7] == 'u';
    assert Lower("movie.ass")[6] == 'a';
  }
}

=== FILE: ascii.dfy ===
/** Byte-level character classes. A Go `string` is a byte sequence; the model
    writes it as a Dafny `string` in which every character stands for one
    byte. Every byte of a multi-byte UTF-8 sequence is at least 0x80, so it
    falls outside every ASCII class below exactly as a non-ASCII character does. */
module Ascii {

  type Byte = b: int | 0 <= b < 256

  predicate IsDigit(c: char) { '0' <= c <= '9' }

  predicate IsLower(c: char) { 'a' <= c <= 'z' }

  predicate IsUpper(c: char) { 'A' <= c <= 'Z' }

  predicate IsAlnum(c: char) { IsDigit(c) || IsLower(c) || IsUpper(c) }

  /** ASCII lower-casing: only 'A'..'Z' change. */
  function ToLower(c: char): (r: char)
    ensures IsUpper(c) ==> IsLower(r) && r as int == c as int + 32
    ensures !IsUpper(c) ==> r == c
  {
    if IsUpper(c) then (c as int + 32) as char else c
  }

  function Lower(s: string): (r: string)
    ensures |r| == |s|
    ensures forall i :: 0 <= i < |s| ==> r[i] == ToLower(s[i])
  {
    seq(|s|, i requires 0 <= i < |s| => ToLower(s[i]))
  }

  predicate HasPrefix<T(==)>(s: seq<T>, p: seq<T>) {
    |p| <= |s| && s[..|p|] == p
  }

  predicate HasSuffix<T(==)>(s: seq<T>, p: seq<T>) {
    |p| <= |s| && s[|s| - |p|..] == p
  }
}

=== FILE: cache.dfy ===
/** Memoize (internal/cache/cache.go): get-or-compute-and-store over a
    key/value store whose entries expire. The store is a map from key to the
    serialized payload and its expiry instant (Unix seconds); the clock, the
    store's I/O faults and the JSON codec are parameters. The clock is read
    twice: `now` when the entry is looked up, and `writeNow` when a computed
    value is written, after `fn` has returned, since badger dates an entry's
    TTL from the write. */
module Cache {
  import opened Results

  datatype Item = Item(payload: string, expiresAt: int)

  type Store = map<string, Item>

  /** A key is found only while the clock is before its expiry. */
  predicate Live(st: Store, key: string, now: int) {
    key in st && now < st[key].expiresAt
  }

  /** Whether the read transaction or the write transaction fails for a
      reason other than a missing key. */
  datatype Faults = Faults(readFails: bool, writeFails: bool)

  /** json.Marshal and json.Unmarshal for the cached type; either may fail. */
  datatype Codec<!V> = Codec(encode: V -> Option<string>, decode: string -> Option<V>)

  /** The value or error returned, the store afterwards, and the keys `fn`
      was called with. */
  datatype Memo<V> = Memo(result: Result<V>, store: Store, calls: seq<string>)

  function Memoize<V>(key: string, ttl: int, fn: string -> Result<V>,
                      st: Store, now: int, writeNow: int, faults: Faults, codec: Codec<V>): (m: Memo<V>)
    // at most one call of fn, and only with the key itself, only on a miss
    ensures m.calls == [] || m.calls == [key]
    ensures m.calls == [key] <==> !faults.readFails && !Live(st, key, now)
    // a failed lookup or decode: an error, no computation, no write
    ensures faults.readFails ==> m == Memo(Err(CacheRead), st, [])
    ensures (!faults.readFails && Live(st, key, now) && codec.decode(st[key].payload).None?)
              ==> m == Memo(Err(CacheRead), st, [])
    // a hit: the stored value, no computation, no write
    ensures (!faults.readFails && Live(st, key, now) && codec.decode(st[key].payload).Some?)
              ==> m == Memo(Ok(codec.decode(st[key].payload).value), st, [])
    // a miss: fn's error comes back as it is and nothing is written
    ensures m.calls == [key] && fn(key).Err? ==> m.result == fn(key) && m.store == st
    // a miss whose value is stored: the value is returned, the key expires ttl after the write
    ensures m.calls == [key] && fn(key).Ok? ==>
              if !faults.writeFails && codec.encode(fn(key).value).Some? then
                m.result == fn(key)
                && m.store == st[key := Item(codec.encode(fn(key).value).value, writeNow + ttl)]
              else
                m.result == Err(CacheWrite) && m.store == st
    // no other key is touched
    ensures m.store.Keys <= st.Keys + {key}
    ensures forall k :: k in st && k != key ==> k in m.store && m.store[k] == st[k]
  {
    if faults.readFails then Memo(Err(CacheRead), st, [])
    else if Live(st, key, now) then
      match codec.decode(st[key].payload)
      case None => Memo(Err(CacheRead), st, [])
      case Some(v) => Memo(Ok(v), st, [])
    else
      match fn(key)
      case Err(e) => Memo(Err(e), st, [key])
      case Ok(v) =>
        match codec.encode(v)
        case None => Memo(Err(CacheWrite), st, [key])
        case Some(p) =>
          if faults.writeFails then Memo(Err(CacheWrite), st, [key])
          else Memo(Ok(v), st[key := Item(p, writeNow + ttl)], [key])
  }

  const NoFaults := Faults(false, false)

  ghost predicate RoundTrips<V>(codec: Codec<V>, v: V) {
    codec.encode(v).Some? && codec.decode(codec.encode(v).value) == Some(v)
  }

  // ---- Properties across calls ---------------------------------------------

  /** A value computed and stored is served, without computing, by any later
      call for the same key made before the TTL, counted from the write, runs
      out, whatever that call's own function would compute. A slow `fn` thus
      keeps its value cached past `now + ttl`. */
  lemma HitBeforeExpiry<V>(key: string, ttl: int, fn: string -> Result<V>, fn2: string -> Result<V>,
                               st: Store, now: int, writeNow: int, later: int, laterWrite: int, codec: Codec<V>)
    requires !Live(st, key, now)
    requires fn(key).Ok? && RoundTrips(codec, fn(key).value)
    requires later < writeNow + ttl
    ensures var first := Memoize(key, ttl, fn, st, now, writeNow, NoFaults, codec);
            var second := Memoize(key, ttl, fn2, first.store, later, laterWrite, NoFaults, codec);
            first.result == fn(key) && second == Memo(first.result, first.store, [])
  {
  }

  /** Once the TTL, counted from the write, has run out the stored value is
      ignored and the function is called again. */
  lemma MissAfterExpiry<V>(key: string, ttl: int, fn: string -> Result<V>, fn2: string -> Result<V>,
                               st: Store, now: int, writeNow: int, later: int, laterWrite: int, codec: Codec<V>)
    requires !Live(st, key, now)
    requires fn(key).Ok? && RoundTrips(codec, fn(key).value)
    requires later >= writeNow + ttl
    ensures var first := Memoize(key, ttl, fn, st, now, writeNow, NoFaults, codec);
            Memoize(key, ttl, fn2, first.store, later, laterWrite, NoFaults, codec).calls == [key]
  {
  }

  /** A failed computation is not cached: the next call computes again. */
  lemma ErrorsNotCached<V>(key: string, ttl: int, fn: string -> Result<V>, fn2: string -> Result<V>,
                           st: Store, now: int, writeNow: int, later: int, laterWrite: int,
                           faults: Faults, codec: Codec<V>)
    requires !Live(st, key, now) && !faults.readFails
    requires fn(key).Err?
    requires later >= now
    ensures var first := Memoize(key, ttl, fn, st, now, writeNow, faults, codec);
            first.result == fn(key)
            && Memoize(key, ttl, fn2, first.store, later, laterWrite, NoFaults, codec).calls == [key]
  {
  }

  /** Memoizing one key does not change what a call for another key, made
      at any instant, returns or computes. */
  lemma OtherKeysUnaffected<V>(key: string, other: string, ttl: int, fn: string -> Result<V>,
                               fn2: string -> Result<V>, st: Store, now: int, writeNow: int,
                               later: int, laterWrite: int, faults: Faults, codec: Codec<V>)
    requires other != key
    ensures var first := Memoize(key, ttl, fn, st, now, writeNow, faults, codec);
            var before := Memoize(other, ttl, fn2, st, later, laterWrite, NoFaults, codec);
            var after := Memoize(other, ttl, fn2, first.store, later, laterWrite, NoFaults, codec);
            after.result == before.result && after.calls == before.calls
  {
  }
}

=== FILE: decimal.dfy ===
/** Decimal text <-> integers as Go's strconv package does it for `int`
    on a 64-bit platform: `strconv.Itoa` and `strconv.Atoi`. Atoi is the
    parser the request validators and the handler's season/episode parsing
    rely on, and Itoa is how the service renders subtitle IDs. */
module Decimal {
  import opened Ascii

  const MaxUint64: int := 0xFFFF_FFFF_FFFF_FFFF
  const MaxInt64: int := 0x7FFF_FFFF_FFFF_FFFF
  const MinInt64: int := -0x8000_0000_0000_0000

  predicate AllDigits(s: string) {
    forall i :: 0 <= i < |s| ==> IsDigit(s[i])
  }

  function DigitValue(c: char): nat
    requires IsDigit(c)
  {
    c as int - '0' as int
  }

  function DigitChar(d: nat): (c: char)
    requires d < 10
    ensures IsDigit(c) && DigitValue(c) == d
  {
    ('0' as int + d) as char
  }

  /** The value of a string of decimal digits, most significant first. */
  function DigitsValue(s: string): nat
    requires AllDigits(s)
  {
    if s == [] then 0 else DigitsValue(s[..|s| - 1]) * 10 + DigitValue(s[|s| - 1])
  }

  /** Decimal rendering of a natural number, without leading zeros. */
  function NatToString(n: nat): (r: string)
    ensures 1 <= |r| && AllDigits(r)
    ensures r[0] == '0' <==> n == 0
  {
    if n < 10 then [DigitChar(n)] else NatToString(n / 10) + [DigitChar(n % 10)]
  }

  /** strconv.Itoa: a minus sign for negative values, then the digits. */
  function Itoa(n: int): string {
    if n < 0 then "-" + NatToString(-n) else NatToString(n)
  }

  /** What strconv.ParseUint(s, 10, 64) has decided after reading `s`.
      Go scans left to right and stops at the first non-digit (a syntax
      error) or at the first digit that makes the value exceed 2^64-1 (a
      range error); the state after a prefix is therefore determined by
      the state after the prefix one shorter, which is how it is written. */
  datatype UintScan = UOk(n: nat) | USyntax | URange

  function ScanUint(s: string): UintScan {
    if s == [] then UOk(0)
    else
      match ScanUint(s[..|s| - 1])
      case UOk(n) =>
        var c := s[|s| - 1];
        if !IsDigit(c) then USyntax
        else if n * 10 + DigitValue(c) > MaxUint64 then URange
        else UOk(n * 10 + DigitValue(c))
      case other => other
  }

  function ParseUint(s: string): UintScan {
    if s == [] then USyntax else ScanUint(s)
  }

  /** The outcome of strconv.Atoi. On a syntax error Go returns 0, on a
      range error the value clamped to the int64 bounds. */
  datatype Parsed = Parsed(value: int) | SyntaxError | RangeError(clamped: int)

  /** The integer Go hands back next to the error. */
  function AtoiValue(p: Parsed): int {
    match p
    case Parsed(v) => v
    case SyntaxError => 0
    case RangeError(c) => c
  }

  /** The text after an optional leading sign. */
  function Unsigned(s: string): string {
    if |s| > 0 && (s[0] == '+' || s[0] == '-') then s[1..] else s
  }

  /** strconv.Atoi (via ParseInt(s, 10, 64)). */
  function Atoi(s: string): (r: Parsed)
    ensures r.Parsed? ==> MinInt64 <= r.value <= MaxInt64
    ensures r.RangeError? ==> r.clamped == MaxInt64 || r.clamped == MinInt64
  {
    if s == [] then SyntaxError
    else
      var neg := s[0] == '-';
      match ParseUint(Unsigned(s))
      case USyntax => SyntaxError
      case URange => if neg then RangeError(MinInt64) else RangeError(MaxInt64)
      case UOk(u) =>
        if !neg && u > MaxInt64 then RangeError(MaxInt64)
        else if neg && u > -MinInt64 then RangeError(MinInt64)
        else Parsed(if neg then -(u as int) else u)
  }

  /** A decimal literal: an optional sign, then at least one digit. */
  predicate IsDecimal(s: string) {
    |Unsigned(s)| > 0 && AllDigits(Unsigned(s))
  }

  function LiteralValue(s: string): int
    requires IsDecimal(s)
  {
    var v: int := DigitsValue(Unsigned(s));
    if s[0] == '-' then -v else v
  }

  lemma {:induction false} ScanUintSound(s: string)
    requires ScanUint(s).UOk?
    ensures AllDigits(s) && ScanUint(s).n == DigitsValue(s)
  {
    if s != [] {
      var p := s[..|s| - 1];
      ScanUintSound(p);
      assert s == p + [s[|s| - 1]];
    }
  }

  lemma {:induction false} ScanUintComplete(s: string)
    requires AllDigits(s) && DigitsValue(s) <= MaxUint64
    ensures ScanUint(s) == UOk(DigitsValue(s))
  {
    if s != [] {
      var p := s[..|s| - 1];
      assert AllDigits(p);
      ScanUintComplete(p);
    }
  }

  /** Atoi succeeds exactly on decimal literals whose value fits in an int64,
      and then yields that value. */
  lemma AtoiExact(s: string)
    ensures Atoi(s).Parsed? <==> IsDecimal(s) && MinInt64 <= LiteralValue(s) <= MaxInt64
    ensures Atoi(s).Parsed? ==> Atoi(s).value == LiteralValue(s)
  {
    var u := Unsigned(s);
    if s != [] && u != [] {
      if ScanUint(u).UOk? {
        ScanUintSound(u);
      }
      if AllDigits(u) && DigitsValue(u) <= MaxUint64 {
        ScanUintComplete(u);
      }
    }
  }

  lemma {:induction false} NatToStringValue(n: nat)
    ensures DigitsValue(NatToString(n)) == n
  {
    if n >= 10 {
      NatToStringValue(n / 10);
      var s := NatToString(n);
      assert s[..|s| - 1] == NatToString(n / 10);
    }
  }

  /** Parsing what Itoa renders gives the number back, for every int64. */
  lemma AtoiItoa(n: int)
    requires MinInt64 <= n <= MaxInt64
    ensures Atoi(Itoa(n)) == Parsed(n)
  {
    var s := Itoa(n);
    if n < 0 {
      assert Unsigned(s) == NatToString(-n);
      NatToStringValue(-n);
    } else {
      assert Unsigned(s) == NatToString(n);
      NatToStringValue(n);
    }
    AtoiExact(s);
  }

}

=== FILE: features.dfy ===
/** The tokenizer and relevance scorer of pkg/subdivx/subtitlefeatures.go.
    A candidate subtitle stores the distinct lower-case alphanumeric words of
    its title and description; a query is tokenized the same way and the
    score counts matching words. */
module Features {
  import opened Ascii

  /** Characters that can appear inside a token. */
  predicate IsTokenChar(c: char) { IsLower(c) || IsDigit(c) }

  /** The per-byte filter: letters and digits are kept and lower-cased, every
      other byte becomes a space. (alphaNumericDistinctLowercaseWords also
      lists ' ' among the kept bytes; lower-casing it gives ' ' again.) */
  function NormalizeChar(c: char): char {
    if IsAlnum(c) then ToLower(c) else ' '
  }

  function Normalize(s: string): (r: string)
    ensures |r| == |s|
    ensures forall i :: 0 <= i < |s| ==> r[i] == NormalizeChar(s[i])
    ensures forall i :: 0 <= i < |s| ==> (IsTokenChar(r[i]) <==> IsAlnum(s[i]))
    ensures forall i :: 0 <= i < |s| ==> IsTokenChar(r[i]) || r[i] == ' '
  {
    seq(|s|, i requires 0 <= i < |s| => NormalizeChar(s[i]))
  }

  /** Length of the run of non-space characters that starts `s`. */
  function WordLength(s: string): (n: nat)
    ensures n <= |s|
    ensures forall i :: 0 <= i < n ==> s[i] != ' '
    ensures n == |s| || s[n] == ' '
  {
    if s == [] || s[0] == ' ' then 0 else 1 + WordLength(s[1..])
  }

  /** strings.Fields on text whose only whitespace is ' ' (which is all the
      filter leaves): the maximal runs of non-space characters, in order. */
  function Fields(s: string): (ws: seq<string>)
    ensures forall w :: w in ws ==> |w| > 0 && ' ' !in w
    ensures forall w, c :: w in ws && c in w ==> c in s
    decreases |s|
  {
    if s == [] then []
    else if s[0] == ' ' then
      assert forall c :: c in s[1..] ==> c in s;
      Fields(s[1..])
    else
      var n := WordLength(s);
      assert forall c :: c in s[n..] || c in s[..n] ==> c in s;
      [s[..n]] + Fields(s[n..])
  }

  predicate NoDuplicates<T(==)>(xs: seq<T>) {
    forall i, j :: 0 <= i < j < |xs| ==> xs[i] != xs[j]
  }

  /** Position of the first occurrence of `x` in `xs`. */
  function FirstIndex<T(==)>(xs: seq<T>, x: T): (k: nat)
    requires x in xs
    ensures k < |xs| && xs[k] == x
    ensures forall j :: 0 <= j < k ==> xs[j] != x
  {
    if xs[0] == x then 0 else 1 + FirstIndex(xs[1..], x)
  }

  lemma {:induction false} FirstIndexInPrefix<T>(xs: seq<T>, x: T, n: nat)
    requires n <= |xs| && x in xs[..n]
    ensures FirstIndex(xs, x) == FirstIndex(xs[..n], x)
  {
    if xs[0] != x {
      assert xs[..n][1..] == xs[1..][..n - 1];
      FirstIndexInPrefix(xs[1..], x, n - 1);
    }
  }

  /** The in-place dedup of alphaNumericDistinctLowercaseWords: scan left to
      right, keep an element the first time it is seen. */
  function Dedup(xs: seq<string>): (r: seq<string>)
    ensures NoDuplicates(r)
    ensures forall x :: x in r <==> x in xs
    ensures forall i, j :: 0 <= i < j < |r| ==> FirstIndex(xs, r[i]) < FirstIndex(xs, r[j])
  {
    if xs == [] then []
    else
      var p := xs[..|xs| - 1];
      var x := xs[|xs| - 1];
      var r := Dedup(p);
      assert xs == p + [x];
      forall y | y in p
        ensures FirstIndex(xs, y) == FirstIndex(p, y) < |p|
      {
        FirstIndexInPrefix(xs, y, |p|);
      }
      if x in r then r else r + [x]
  }

  /** alphaNumericDistinctLowercaseWords: distinct tokens, each a non-empty
      run of lower-case letters and digits (WordsFirstOccurrences states which
      tokens and in what order). */
  function Words(s: string): (ws: seq<string>)
    ensures NoDuplicates(ws)
    ensures forall w :: w in ws ==> |w| > 0
    ensures forall w, c :: w in ws && c in w ==> IsTokenChar(c)
  {
    var t := Normalize(s);
    assert forall c :: c in t && c != ' ' ==> IsTokenChar(c);
    Dedup(Fields(t))
  }

  /** Every field of the filtered text is a token, every token is such a
      field, and tokens appear in the order their fields first occur. */
  lemma WordsFirstOccurrences(s: string)
    ensures forall w :: w in Words(s) <==> w in Fields(Normalize(s))
    ensures forall i, j :: 0 <= i < j < |Words(s)| ==>
              FirstIndex(Fields(Normalize(s)), Words(s)[i]) < FirstIndex(Fields(Normalize(s)), Words(s)[j])
  {
  }

  // ---- Fields -------------------------------------------------------------

  lemma {:induction false} WordLengthBeforeSpace(a: string, t: string)
    requires |t| > 0 && t[0] == ' '
    ensures WordLength(a + t) == WordLength(a)
  {
    if a != [] && a[0] != ' ' {
      assert (a + t)[1..] == a[1..] + t;
      WordLengthBeforeSpace(a[1..], t);
    }
  }

  /** A space splits the field list in two. */
  lemma {:induction false} FieldsSplit(a: string, b: string)
    ensures Fields(a + " " + b) == Fields(a) + Fields(b)
    decreases |a|
  {
    var s := a + " " + b;
    if a == [] {
      assert s[1..] == b;
    } else if a[0] == ' ' {
      assert s[1..] == a[1..] + " " + b;
      FieldsSplit(a[1..], b);
    } else {
      assert s == a + (" " + b);
      WordLengthBeforeSpace(a, " " + b);
      var n := WordLength(a);
      assert s[..n] == a[..n];
      assert s[n..] == a[n..] + " " + b;
      FieldsSplit(a[n..], b);
    }
  }

  lemma {:induction false} WordLengthOfWord(w: string)
    requires ' ' !in w
    ensures WordLength(w) == |w|
  {
    if w != [] {
      WordLengthOfWord(w[1..]);
    }
  }

  /** A single run of non-space characters is its own only field. */
  lemma FieldsOfWord(w: string)
    requires |w| > 0 && ' ' !in w
    ensures Fields(w) == [w]
  {
    WordLengthOfWord(w);
    assert w[..|w|] == w;
    assert w[|w|..] == [];
  }

  /** Text has no fields exactly when it is all spaces. */
  lemma {:induction false} FieldsEmpty(s: string)
    ensures Fields(s) == [] <==> forall i :: 0 <= i < |s| ==> s[i] == ' '
  {
    if s != [] && s[0] == ' ' {
      FieldsEmpty(s[1..]);
      assert forall i :: 1 <= i < |s| ==> s[i] == s[1..][i - 1];
    }
  }

  /** Words separated by single spaces. */
  function JoinWords(ws: seq<string>): string {
    if ws == [] then ""
    else if |ws| == 1 then ws[0]
    else ws[0] + " " + JoinWords(ws[1..])
  }

  /** Fields takes apart what JoinWords puts together. */
  lemma {:induction false} FieldsJoin(ws: seq<string>)
    requires forall w :: w in ws ==> |w| > 0 && ' ' !in w
    ensures Fields(JoinWords(ws)) == ws
  {
    if |ws| == 1 {
      FieldsOfWord(ws[0]);
    } else if |ws| > 1 {
      var tail := ws[1..];
      assert JoinWords(ws) == ws[0] + " " + JoinWords(tail);
      FieldsSplit(ws[0], JoinWords(tail));
      FieldsOfWord(ws[0]);
      assert forall w :: w in tail ==> w in ws;
      FieldsJoin(tail);
      assert [ws[0]] + tail == ws;
    }
  }

  // ---- Dedup --------------------------------------------------------------

  /** Dedup leaves a duplicate-free sequence as it is. */
  lemma {:induction false} DedupOfDistinct(xs: seq<string>)
    requires NoDuplicates(xs)
    ensures Dedup(xs) == xs
  {
    if xs != [] {
      var p := xs[..|xs| - 1];
      DedupOfDistinct(p);
      assert xs[|xs| - 1] !in p;
    }
  }

  /** Appending elements already seen adds nothing. */
  lemma {:induction false} DedupAbsorbs(xs: seq<string>, ys: seq<string>)
    requires forall y :: y in ys ==> y in xs
    ensures Dedup(xs + ys) == Dedup(xs)
    decreases |ys|
  {
    if ys != [] {
      var q := ys[..|ys| - 1];
      var y := ys[|ys| - 1];
      assert (xs + ys)[..|xs + ys| - 1] == xs + q;
      assert (xs + ys)[|xs + ys| - 1] == y;
      assert forall z :: z in q ==> z in ys;
      DedupAbsorbs(xs, q);
      assert y in Dedup(xs + q);
    } else {
      assert xs + ys == xs;
    }
  }

  // ---- Tokenizer properties -----------------------------------------------

  /** Empty, all-space and all-punctuation text have no tokens, and nothing else. */
  lemma WordsEmpty(s: string)
    ensures Words(s) == [] <==> forall i :: 0 <= i < |s| ==> !IsAlnum(s[i])
  {
    var t := Normalize(s);
    FieldsEmpty(t);
  }

  /** Tokens ignore ASCII case: texts equal up to case have the same tokens. */
  lemma WordsIgnoreCase(s: string, t: string)
    requires |s| == |t| && forall i :: 0 <= i < |s| ==> ToLower(s[i]) == ToLower(t[i])
    ensures Words(s) == Words(t)
  {
    assert Normalize(s) == Normalize(t);
  }

  /** Any byte that is not a letter or digit separates words like a space does. */
  lemma WordsSeparator(s: string, i: nat, c: char)
    requires i < |s| && !IsAlnum(s[i]) && !IsAlnum(c)
    ensures Words(s[i := c]) == Words(s)
  {
    assert Normalize(s[i := c]) == Normalize(s);
  }

  /** Repeating a text does not add tokens. */
  lemma WordsRepeated(s: string)
    ensures Words(s + " " + s) == Words(s)
  {
    var t := Normalize(s);
    assert Normalize(s + " " + s) == t + " " + t;
    FieldsSplit(t, t);
    DedupAbsorbs(Fields(t), Fields(t));
  }

  /** Tokenizing yields exactly the fields of the filtered text when those
      are already distinct. */
  lemma WordsOfDistinctFields(s: string, ws: seq<string>)
    requires Fields(Normalize(s)) == ws && NoDuplicates(ws)
    ensures Words(s) == ws
  {
    DedupOfDistinct(ws);
  }

  /** A trailing space adds no field. */
  lemma FieldsTrailingSpace(s: string)
    ensures Fields(s + " ") == Fields(s)
  {
    FieldsSplit(s, "");
    assert s + " " + "" == s + " ";
  }

  /** `n` spaces. */
  function Spaces(n: nat): (r: string)
    ensures |r| == n && forall i :: 0 <= i < n ==> r[i] == ' '
  {
    if n == 0 then "" else Spaces(n - 1) + " "
  }

  /** Trailing spaces add no field. */
  lemma {:induction false} FieldsTrailingSpaces(s: string, n: nat)
    ensures Fields(s + Spaces(n)) == Fields(s)
  {
    if n == 0 {
      assert s + Spaces(0) == s;
    } else {
      FieldsTrailingSpaces(s, n - 1);
      assert s + Spaces(n) == (s + Spaces(n - 1)) + " ";
      FieldsTrailingSpace(s + Spaces(n - 1));
    }
  }

  /** Text that normalises to distinct words joined by single spaces, with
      any number of separators after them, tokenizes to those words. */
  lemma WordsOfPaddedJoin(s: string, ws: seq<string>, pad: nat)
    requires forall w :: w in ws ==> |w| > 0 && ' ' !in w
    requires NoDuplicates(ws)
    requires Normalize(s) == JoinWords(ws) + Spaces(pad)
    ensures Words(s) == ws
  {
    FieldsJoin(ws);
    FieldsTrailingSpaces(JoinWords(ws), pad);
    WordsOfDistinctFields(s, ws);
  }

  lemma NormalizePunctuationExample()
    ensures Normalize("abc!def123&ghi 456##") == "abc def123 ghi 456  "
  {
  }

  lemma JoinPunctuationExample()
    ensures JoinWords(["abc", "def123", "ghi", "456"]) + Spaces(2) == "abc def123 ghi 456  "
  {
  }

  /** Punctuation separates tokens exactly as spaces do. */
  lemma WordsPunctuationExample()
    ensures Words("abc!def123&ghi 456##") == ["abc", "def123", "ghi", "456"]
  {
    var ws := ["abc", "def123", "ghi", "456"];
    NormalizePunctuationExample();
    JoinPunctuationExample();
    PunctuationWords(ws);
    WordsOfPaddedJoin("abc!def123&ghi 456##", ws, 2);
  }

  lemma PunctuationWords(ws: seq<string>)
    requires ws == ["abc", "def123", "ghi", "456"]
    ensures forall w :: w in ws ==> |w| > 0 && ' ' !in w
    ensures NoDuplicates(ws)
  {
    assert ws[0][0] == 'a' && ws[1][0] == 'd' && ws[2][0] == 'g' && ws[3][0] == '4';
  }

  lemma NormalizeMixedCaseExample()
    ensures Normalize("HeLLo WoRLd") == JoinWords(["hello", "world"]) + Spaces(0)
  {
  }

  /** Tokenizing ignores case. */
  lemma WordsMixedCaseExample()
    ensures Words("HeLLo WoRLd") == ["hello", "world"]
  {
    NormalizeMixedCaseExample();
    WordsOfPaddedJoin("HeLLo WoRLd", ["hello", "world"], 0);
  }

  // ---- Score ----------------------------------------------------------------

  /** Number of entries of `ws` equal to `w`. */
  function Count(ws: seq<string>, w: string): (n: nat)
    ensures n <= |ws|
    ensures n == 0 <==> w !in ws
  {
    if ws == [] then 0
    else
      var p := ws[..|ws| - 1];
      assert ws == p + [ws[|ws| - 1]];
      Count(p, w) + (if ws[|ws| - 1] == w then 1 else 0)
  }

  /** What the two nested loops of Score add up: for every query word, the
      number of description words equal to it. */
  function SumCounts(query: seq<string>, desc: seq<string>): nat {
    if query == [] then 0
    else SumCounts(query[..|query| - 1], desc) + Count(desc, query[|query| - 1])
  }

  /** The reference meaning of a score: how many description words occur
      among the query words. */
  function MatchCount(desc: seq<string>, query: seq<string>): (n: nat)
    ensures n <= |desc|
  {
    if desc == [] then 0
    else MatchCount(desc[..|desc| - 1], query) + (if desc[|desc| - 1] in query then 1 else 0)
  }

  /** The score of a candidate with description words `desc` against `s`. */
  function MatchScore(desc: seq<string>, s: string): nat {
    MatchCount(desc, Words(s))
  }

  lemma {:induction false} SumCountsAppendDesc(query: seq<string>, desc: seq<string>, d: string)
    ensures SumCounts(query, desc + [d]) == SumCounts(query, desc) + Count(query, d)
  {
    if query != [] {
      var q := query[..|query| - 1];
      var x := query[|query| - 1];
      SumCountsAppendDesc(q, desc, d);
      assert (desc + [d])[..|desc|] == desc;
      assert query == q + [x];
    }
  }

  lemma {:induction false} CountDistinct(xs: seq<string>, w: string)
    requires NoDuplicates(xs)
    ensures Count(xs, w) == if w in xs then 1 else 0
  {
    if xs != [] {
      var p := xs[..|xs| - 1];
      CountDistinct(p, w);
      assert xs == p + [xs[|xs| - 1]];
    }
  }

  /** Because the query words are distinct, the loops count each matching
      description word exactly once. */
  lemma {:induction false} SumCountsIsMatchCount(query: seq<string>, desc: seq<string>)
    requires NoDuplicates(query)
    ensures SumCounts(query, desc) == MatchCount(desc, query)
    decreases |desc|
  {
    if desc == [] {
      SumCountsNoDesc(query);
    } else {
      var p := desc[..|desc| - 1];
      var d := desc[|desc| - 1];
      assert desc == p + [d];
      SumCountsIsMatchCount(query, p);
      SumCountsAppendDesc(query, p, d);
      CountDistinct(query, d);
    }
  }

  lemma {:induction false} SumCountsNoDesc(query: seq<string>)
    ensures SumCounts(query, []) == 0
  {
    if query != [] {
      SumCountsNoDesc(query[..|query| - 1]);
    }
  }

  /** (*Subtitle).Score, with its two nested loops; the inner one is
      CountWord. */
  method Score(descriptionWords: seq<string>, s: string) returns (score: nat)
    ensures score == MatchScore(descriptionWords, s)
  {
    var inputWords := Words(s);
    score := 0;
    for i := 0 to |inputWords|
      invariant score == SumCounts(inputWords[..i], descriptionWords)
    {
      var n := CountWord(descriptionWords, inputWords[i]);
      score := score + n;
      assert inputWords[..i + 1][..i] == inputWords[..i];
    }
    assert inputWords[..|inputWords|] == inputWords;
    SumCountsIsMatchCount(inputWords, descriptionWords);
  }

  /** The inner loop of Score: how many description words equal `word`. */
  method CountWord(descriptionWords: seq<string>, word: string) returns (n: nat)
    ensures n == Count(descriptionWords, word)
  {
    n := 0;
    for j := 0 to |descriptionWords|
      invariant n == Count(descriptionWords[..j], word)
    {
      assert descriptionWords[..j + 1][..j] == descriptionWords[..j];
      if word == descriptionWords[j] {
        n := n + 1;
      }
    }
    assert descriptionWords[..|descriptionWords|] == descriptionWords;
  }

  // ---- Score properties -----------------------------------------------------

  function Elems(xs: seq<string>): set<string> {
    set x | x in xs
  }

  lemma {:induction false} ElemsBound(xs: seq<string>)
    ensures |Elems(xs)| <= |xs|
  {
    if xs != [] {
      var p := xs[..|xs| - 1];
      ElemsBound(p);
      assert xs == p + [xs[|xs| - 1]];
      assert Elems(xs) == Elems(p) + {xs[|xs| - 1]};
    }
  }

  lemma ElemsSnoc(p: seq<string>, d: string)
    ensures Elems(p + [d]) == Elems(p) + {d}
  {
  }

  lemma IntersectAdd(a: set<string>, q: set<string>, d: string)
    requires d !in a
    ensures |(a + {d}) * q| == |a * q| + (if d in q then 1 else 0)
  {
    if d in q {
      assert (a + {d}) * q == (a * q) + {d};
    } else {
      assert (a + {d}) * q == a * q;
    }
  }

  lemma {:induction false} MatchCountDistinct(desc: seq<string>, query: seq<string>)
    requires NoDuplicates(desc)
    ensures MatchCount(desc, query) == |Elems(desc) * Elems(query)|
  {
    if desc != [] {
      var p := desc[..|desc| - 1];
      var d := desc[|desc| - 1];
      assert desc == p + [d];
      DistinctLast(desc);
      MatchCountDistinct(p, query);
      assert MatchCount(desc, query) == MatchCount(p, query) + (if d in query then 1 else 0);
      assert (d in query) == (d in Elems(query));
      ElemsSnoc(p, d);
      IntersectAdd(Elems(p), Elems(query), d);
    }
  }

  /** Dropping the last entry of a duplicate-free sequence keeps it
      duplicate-free, and that entry occurs nowhere before it. */
  lemma DistinctLast(xs: seq<string>)
    requires NoDuplicates(xs) && xs != []
    ensures NoDuplicates(xs[..|xs| - 1])
    ensures xs[|xs| - 1] !in Elems(xs[..|xs| - 1])
  {
    var p := xs[..|xs| - 1];
    forall i, j | 0 <= i < j < |p|
      ensures p[i] != p[j]
    {
      assert p[i] == xs[i] && p[j] == xs[j];
    }
    forall k | 0 <= k < |p|
      ensures p[k] != xs[|xs| - 1]
    {
      assert p[k] == xs[k];
    }
  }

  lemma SubsetCard(a: set<string>, b: set<string>)
    requires a <= b
    ensures |a| <= |b|
  {
    assert b == a + (b - a);
  }

  /** With duplicate-free description words, a score never exceeds the number
      of query tokens nor the number of description words. */
  lemma ScoreBound(desc: seq<string>, s: string)
    requires NoDuplicates(desc)
    ensures 0 <= MatchScore(desc, s) <= |Words(s)|
    ensures MatchScore(desc, s) <= |desc|
  {
    var q := Words(s);
    MatchCountDistinct(desc, q);
    SubsetCard(Elems(desc) * Elems(q), Elems(q));
    ElemsBound(q);
  }

  /** A score depends on the query only through the set of its tokens. */
  lemma {:induction false} MatchCountBySet(desc: seq<string>, q1: seq<string>, q2: seq<string>)
    requires forall w :: w in q1 <==> w in q2
    ensures MatchCount(desc, q1) == MatchCount(desc, q2)
  {
    if desc != [] {
      MatchCountBySet(desc[..|desc| - 1], q1, q2);
    }
  }

  lemma {:induction false} MatchCountNoQuery(desc: seq<string>)
    ensures MatchCount(desc, []) == 0
  {
    if desc != [] {
      MatchCountNoQuery(desc[..|desc| - 1]);
    }
  }

  /** Repeating, re-casing or re-punctuating the query leaves the score as it is;
      an empty query scores 0. */
  lemma ScoreInvariance(desc: seq<string>, s: string, t: string, i: nat, c: char)
    ensures MatchScore(desc, s + " " + s) == MatchScore(desc, s)
    ensures |s| == |t| && (forall k :: 0 <= k < |s| ==> ToLower(s[k]) == ToLower(t[k])) ==>
              MatchScore(desc, t) == MatchScore(desc, s)
    ensures i < |s| && !IsAlnum(s[i]) && !IsAlnum(c) ==> MatchScore(desc, s[i := c]) == MatchScore(desc, s)
    ensures MatchScore(desc, "") == 0
  {
    WordsRepeated(s);
    if |s| == |t| && (forall k :: 0 <= k < |s| ==> ToLower(s[k]) == ToLower(t[k])) {
      WordsIgnoreCase(s, t);
    }
    if i < |s| && !IsAlnum(s[i]) && !IsAlnum(c) {
      WordsSeparator(s, i, c);
    }
    WordsEmpty("");
    MatchCountNoQuery(desc);
  }
}

=== FILE: limitedreader.dfy ===
/** LimitedReader (pkg/subdivx/limitedreader.go): a reader over a budget `N`
    of bytes that reports its configured error, instead of EOF, once the
    budget is spent. The underlying reader is a byte source that serves at
    most `chunk` bytes per call and reports EOF once it is empty, as a
    bytes.Reader does when `chunk` is at least the buffer size. */
module LimitedReader {
  import opened Ascii

  /** What a Read call returns besides the bytes: no error, the underlying
      reader's EOF, or the LimitedReader's own configured error. */
  datatype Status = NoError | Eof | LimitErr

  datatype Source = Source(rest: seq<Byte>, chunk: nat)

  /** `n` is the budget N; it may start at or below zero. */
  datatype Reader = Reader(src: Source, n: int)

  datatype ReadResult = ReadResult(reader: Reader, data: seq<Byte>, status: Status)

  /** LimitReader(r, n, err). */
  function LimitReader(src: Source, n: int): (r: Reader)
    ensures r.src == src && r.n == n
  {
    Reader(src, n)
  }

  /** One Read of the underlying source into a buffer of `want` bytes. */
  function SourceRead(src: Source, want: nat): (r: (Source, seq<Byte>, Status))
    ensures r.1 + r.0.rest == src.rest && r.0.chunk == src.chunk
    ensures |r.1| <= want && |r.1| <= src.chunk
    ensures r.2 == Eof <==> src.rest == []
    ensures r.2 != LimitErr
    ensures src.rest != [] && want > 0 && src.chunk > 0 ==> |r.1| > 0
  {
    if src.rest == [] then (src, [], Eof)
    else
      var k := Min(Min(want, |src.rest|), src.chunk);
      assert src.rest[..k] + src.rest[k..] == src.rest;
      (Source(src.rest[k..], src.chunk), src.rest[..k], NoError)
  }

  function Min(a: nat, b: nat): (m: nat)
    ensures m <= a && m <= b && (m == a || m == b)
  {
    if a <= b then a else b
  }

  /** LimitedReader.Read with a buffer of `bufLen` bytes. */
  function Read(lr: Reader, bufLen: nat): (r: ReadResult)
    ensures lr.n <= 0 ==> r == ReadResult(lr, [], LimitErr)
    ensures lr.n > 0 ==> |r.data| <= bufLen && |r.data| <= lr.n
    ensures lr.n > 0 ==> r.reader.n == lr.n - |r.data| >= 0
    ensures r.data + r.reader.src.rest == lr.src.rest
    ensures r.reader.src.chunk == lr.src.chunk
    // with budget left, the underlying reader's status passes through
    ensures lr.n > 0 ==> r.status != LimitErr && (r.status == Eof <==> lr.src.rest == [])
    ensures lr.n > 0 && bufLen > 0 && lr.src.chunk > 0 && lr.src.rest != [] ==> |r.data| > 0
  {
    if lr.n <= 0 then ReadResult(lr, [], LimitErr)
    else
      var want := if bufLen > lr.n then lr.n else bufLen;
      var (src, data, status) := SourceRead(lr.src, want);
      ReadResult(Reader(src, lr.n - |data|), data, status)
  }

  /** A sequence of reads with the given buffer lengths: the bytes delivered
      in order, and the reader afterwards. Reads go on after an error, as a
      caller may do. */
  function Reads(lr: Reader, bufs: seq<nat>): (r: (Reader, seq<Byte>))
    ensures r.1 + r.0.src.rest == lr.src.rest
    ensures lr.n >= 0 ==> r.0.n >= 0 && |r.1| + r.0.n == lr.n
    ensures lr.n < 0 ==> r.1 == [] && r.0 == lr
    decreases |bufs|
  {
    if bufs == [] then (lr, [])
    else
      var step := Read(lr, bufs[0]);
      var (end, rest) := Reads(step.reader, bufs[1..]);
      assert step.data + rest + end.src.rest == lr.src.rest;
      (end, step.data + rest)
  }

  /** io.ReadAll over a LimitedReader, every call asking for `bufLen` bytes:
      read until an error; EOF counts as success. */
  function ReadAll(lr: Reader, bufLen: nat): (r: (seq<Byte>, Status))
    requires bufLen > 0 && lr.src.chunk > 0
    ensures r.1 != Eof
    decreases |lr.src.rest|
  {
    var step := Read(lr, bufLen);
    if step.status == Eof then (step.data, NoError)
    else if step.status == LimitErr then (step.data, LimitErr)
    else
      var (more, status) := ReadAll(step.reader, bufLen);
      (step.data + more, status)
  }

  // ---- Properties -------------------------------------------------------------

  /** Whatever the buffer sizes, the bytes delivered never exceed the initial
      budget, and they are the source's leading bytes. */
  lemma TotalWithinBudget(lr: Reader, bufs: seq<nat>)
    ensures |Reads(lr, bufs).1| <= (if lr.n > 0 then lr.n else 0)
    ensures HasPrefix(lr.src.rest, Reads(lr, bufs).1)
  {
    var (end, data) := Reads(lr, bufs);
    assert lr.src.rest[..|data|] == data by {
      assert lr.src.rest == data + end.src.rest;
    }
  }

  /** io.ReadAll delivers the whole source when it is shorter than the budget,
      and otherwise exactly the first N bytes followed by the limit error. The
      buffer size and the chunking make no difference. */
  lemma {:induction false} ReadAllSpec(lr: Reader, bufLen: nat)
    requires bufLen > 0 && lr.src.chunk > 0
    ensures |lr.src.rest| < lr.n ==> ReadAll(lr, bufLen) == (lr.src.rest, NoError)
    ensures |lr.src.rest| >= lr.n ==>
              ReadAll(lr, bufLen) == (lr.src.rest[..(if lr.n > 0 then lr.n else 0)], LimitErr)
    decreases |lr.src.rest|
  {
    if lr.n > 0 && lr.src.rest != [] {
      var step := ReadStep(lr, bufLen);
      ReadAllSpec(step.reader, bufLen);
      if |lr.src.rest| >= lr.n {
        PrefixOfConcat(step.data, step.reader.src.rest, lr.n);
      }
    }
  }

  /** One read with budget and bytes left delivers something, reports no
      error, and leaves the rest for ReadAll to go on with. */
  lemma ReadStep(lr: Reader, bufLen: nat) returns (step: ReadResult)
    requires bufLen > 0 && lr.src.chunk > 0 && lr.n > 0 && lr.src.rest != []
    ensures step == Read(lr, bufLen)
    ensures |step.data| > 0 && step.status == NoError
    ensures step.reader.src.chunk > 0
    ensures ReadAll(lr, bufLen) == (step.data + ReadAll(step.reader, bufLen).0, ReadAll(step.reader, bufLen).1)
  {
    step := Read(lr, bufLen);
  }

  lemma PrefixOfConcat(a: seq<Byte>, b: seq<Byte>, k: int)
    requires |a| <= k <= |a| + |b|
    ensures (a + b)[..k] == a + b[..k - |a|]
  {
  }

  /** The exact-budget case: a source of exactly N bytes is delivered whole,
      but the limit error is raised instead of EOF, because the budget check
      comes before the next underlying read. */
  lemma ExactBudgetReportsLimit(data: seq<Byte>, chunk: nat, bufLen: nat)
    requires |data| > 0 && chunk > 0 && bufLen > 0
    ensures ReadAll(LimitReader(Source(data, chunk), |data|), bufLen) == (data, LimitErr)
  {
    ReadAllSpec(LimitReader(Source(data, chunk), |data|), bufLen);
    assert data[..|data|] == data;
  }

  /** The behaviour limitedreader_test.go exercises on the 13-byte "Hello, World!":
      a first read of 5 under a budget of 5, and io.ReadAll under budgets of
      5, 14 and 20. */
  lemma HelloWorldExamples(data: seq<Byte>, bufLen: nat)
    requires |data| == 13 && bufLen > 0
    ensures Read(LimitReader(Source(data, 13), 5), 5).data == data[..5]
    ensures Read(LimitReader(Source(data, 13), 5), 5).status == NoError
    ensures ReadAll(LimitReader(Source(data, 13), 5), bufLen) == (data[..5], LimitErr)
    ensures ReadAll(LimitReader(Source(data, 13), 14), bufLen) == (data, NoError)
    ensures ReadAll(LimitReader(Source(data, 13), 20), bufLen) == (data, NoError)
  {
    ReadAllSpec(LimitReader(Source(data, 13), 5), bufLen);
    ReadAllSpec(LimitReader(Source(data, 13), 14), bufLen);
    ReadAllSpec(LimitReader(Source(data, 13), 20), bufLen);
  }
}

=== FILE: results.dfy ===
/** Failure-carrying return values shared by every module of the model.
    Go functions here return `(value, error)`; the model returns a `Result`
    whose error is one of the kinds the add-on distinguishes. */
module Results {

  /** The error kinds raised along the subtitle pipeline. */
  datatype Error =
    | Transport                 // a network call failed before any reply
    | BadStatus(code: int)      // the upstream answered with a non-200 status
    | MalformedJson             // a reply body did not decode
    | VersionNotFound           // the site-version marker is absent from the landing page
    | ArchiveTooShort           // fewer than four bytes were downloaded
    | UnknownArchiveFormat      // no known magic-byte signature
    | InvalidArchive            // the container could not be opened or read
    | NoSubtitleInArchive       // no entry name ends in ".srt"
    | CacheRead                 // a store lookup or value decode failed
    | CacheWrite                // a value encode or store write failed
    | Collaborator(tag: int)    // an error from code outside the model, passed through
    | Aborted                   // a runtime panic: the request is abandoned and nothing is returned

  datatype Result<+T> = Ok(value: T) | Err(error: Error) {

    predicate IsFailure() {
      Err?
    }

    function PropagateFailure<U>(): Result<U>
      requires Err?
    {
      Err(error)
    }

    function Extract(): T
      requires Ok?
    {
      value
    }
  }

  datatype Option<+T> = None | Some(value: T)
}

=== FILE: service.dfy ===
/** The service layer (internal/service.go): look the title up and search for
    subtitles through the cache, rank the candidates against the player's
    file name, re-encode downloaded subtitles, and merge polled statistics.
    The IMDb client, the Subdivx client, the charset detector and the
    charmap decoders are oracles. */
module Service {
  import opened Results
  import opened Ascii
  import opened Decimal
  import Features
  import Subdivx
  import Archive
  import Cache

  // ---- Search term and cache keys ----------------------------------------------

  datatype ImdbTitle = ImdbTitle(name: string, year: int)

  /** fmt's %02d: one zero in front of a single digit; anything else, a minus
      sign included, already fills the width of two. */
  function Pad2(n: int): (r: string)
    ensures |r| >= 2
    ensures 0 <= n < 10 ==> r == ['0', DigitChar(n)]
    ensures (n < 0 || n >= 10) ==> r == Itoa(n)
  {
    if 0 <= n < 10 then "0" + Itoa(n) else Itoa(n)
  }

  /** "Name (Year)" for movies, "Name SxxEyy" for everything else. */
  function SearchTerm(titleType: string, title: ImdbTitle, season: int, episode: int): (term: string)
    ensures titleType == "movie" ==> term == title.name + " (" + Itoa(title.year) + ")"
    ensures titleType != "movie" ==> term == title.name + " S" + Pad2(season) + "E" + Pad2(episode)
  {
    if titleType == "movie" then title.name + " (" + Itoa(title.year) + ")"
    else title.name + " S" + Pad2(season) + "E" + Pad2(episode)
  }

  /** For a series the search term determines the season and the episode,
      so distinct episodes never share a subtitles cache key. */
  lemma SeriesTermInjective(titleType: string, title: ImdbTitle, s1: int, e1: int, s2: int, e2: int)
    requires titleType != "movie"
    requires SearchTerm(titleType, title, s1, e1) == SearchTerm(titleType, title, s2, e2)
    ensures s1 == s2 && e1 == e2
  {
    var head := title.name + " S";
    var r1 := Pad2(s1) + "E" + Pad2(e1);
    var r2 := Pad2(s2) + "E" + Pad2(e2);
    SeriesTermShape(titleType, title, s1, e1);
    SeriesTermShape(titleType, title, s2, e2);
    DropPrefix(head, r1, r2);
    Pad2NoE(s1);
    Pad2NoE(s2);
    SplitAtE(Pad2(s1), Pad2(e1), Pad2(s2), Pad2(e2));
    Pad2Injective(s1, s2);
    Pad2Injective(e1, e2);
  }

  lemma SeriesTermShape(titleType: string, title: ImdbTitle, s: int, e: int)
    requires titleType != "movie"
    ensures SearchTerm(titleType, title, s, e) == (title.name + " S") + (Pad2(s) + "E" + Pad2(e))
  {
  }

  /** For a movie the search term determines the year. */
  lemma MovieTermInjective(title: ImdbTitle, year2: int, s1: int, e1: int, s2: int, e2: int)
    requires SearchTerm("movie", title, s1, e1) == SearchTerm("movie", title.(year := year2), s2, e2)
    ensures title.year == year2
  {
    var head := title.name + " (";
    var r1 := Itoa(title.year) + ")";
    var r2 := Itoa(year2) + ")";
    assert SearchTerm("movie", title, s1, e1) == head + r1;
    assert SearchTerm("movie", title.(year := year2), s2, e2) == head + r2;
    DropPrefix(head, r1, r2);
    assert Itoa(title.year) == r1[..|r1| - 1] && Itoa(year2) == r2[..|r2| - 1];
    ItoaInjective(title.year, year2);
  }

  lemma DropPrefix(h: string, a: string, b: string)
    requires h + a == h + b
    ensures a == b
  {
    assert a == (h + a)[|h|..];
    assert b == (h + b)[|h|..];
  }

  /** Distinct episodes of a series are cached under distinct keys. */
  lemma EpisodesCachedApart(titleType: string, title: ImdbTitle, s1: int, e1: int, s2: int, e2: int)
    requires titleType != "movie" && (s1 != s2 || e1 != e2)
    ensures SubtitlesKey(SearchTerm(titleType, title, s1, e1)) != SubtitlesKey(SearchTerm(titleType, title, s2, e2))
  {
    var t1 := SearchTerm(titleType, title, s1, e1);
    var t2 := SearchTerm(titleType, title, s2, e2);
    KeysDisjoint("", t1, "", t2);
    if t1 == t2 {
      SeriesTermInjective(titleType, title, s1, e1, s2, e2);
    }
  }

  lemma ItoaInjective(a: int, b: int)
    ensures Itoa(a) == Itoa(b) ==> a == b
  {
    if Itoa(a) == Itoa(b) {
      var na := NatToString(if a < 0 then -a else a);
      var nb := NatToString(if b < 0 then -b else b);
      assert IsDigit(na[0]) && IsDigit(nb[0]);
      assert (a < 0) == (b < 0) by {
        assert Itoa(a)[0] == (if a < 0 then '-' else na[0]);
        assert Itoa(b)[0] == (if b < 0 then '-' else nb[0]);
      }
      if a < 0 {
        assert na == Itoa(a)[1..] == Itoa(b)[1..] == nb;
      }
      NatToStringValue(if a < 0 then -a else a);
      NatToStringValue(if b < 0 then -b else b);
    }
  }

  lemma Pad2Injective(a: int, b: int)
    ensures Pad2(a) == Pad2(b) ==> a == b
  {
    if Pad2(a) == Pad2(b) {
      var na := NatToString(if a < 0 then -a else a);
      var nb := NatToString(if b < 0 then -b else b);
      assert Pad2(a)[0] == '0' <==> 0 <= a < 10 by {
        assert a >= 10 ==> Pad2(a)[0] == na[0];
        assert a < 0 ==> Pad2(a)[0] == '-';
      }
      assert Pad2(b)[0] == '0' <==> 0 <= b < 10 by {
        assert b >= 10 ==> Pad2(b)[0] == nb[0];
        assert b < 0 ==> Pad2(b)[0] == '-';
      }
      if 0 <= a < 10 {
        assert DigitValue(Pad2(a)[1]) == a && DigitValue(Pad2(b)[1]) == b;
      } else {
        ItoaInjective(a, b);
      }
    }
  }

  lemma Pad2NoE(n: int)
    ensures 'E' !in Pad2(n)
  {
    var d := NatToString(if n < 0 then -n else n);
    assert forall i :: 0 <= i < |d| ==> IsDigit(d[i]);
    assert forall i :: 0 <= i < |Pad2(n)| ==> Pad2(n)[i] == '-' || IsDigit(Pad2(n)[i]);
  }

  /** A text split at its first 'E' comes apart in one way only. */
  lemma SplitAtE(a1: string, b1: string, a2: string, b2: string)
    requires 'E' !in a1 && 'E' !in a2
    requires a1 + "E" + b1 == a2 + "E" + b2
    ensures a1 == a2 && b1 == b2
  {
    var x := a1 + "E" + b1;
    assert x[|a1|] == 'E' && x[|a2|] == 'E';
    assert forall i :: 0 <= i < |a1| ==> x[i] == a1[i];
    assert forall i :: 0 <= i < |a2| ==> x[i] == a2[i];
    assert |a1| == |a2|;
    assert a1 == x[..|a1|] && a2 == x[..|a2|];
    assert b1 == x[|a1| + 1..] && b2 == x[|a2| + 1..];
  }

  const TitleKeyPrefix := "imdb.title : "
  const SubtitlesKeyPrefix := "subdivx.subtitles.v1 : "

  /** 48 hours and 24 hours, in seconds. */
  const TitleTtl: int := 48 * 60 * 60
  const SubtitlesTtl: int := 24 * 60 * 60

  function TitleKey(imdbId: string): (k: string)
    ensures HasPrefix(k, TitleKeyPrefix) && k[|TitleKeyPrefix|..] == imdbId
  {
    TitleKeyPrefix + imdbId
  }

  function SubtitlesKey(term: string): (k: string)
    ensures HasPrefix(k, SubtitlesKeyPrefix) && k[|SubtitlesKeyPrefix|..] == term
  {
    SubtitlesKeyPrefix + term
  }

  /** The two caches share one store without ever sharing a key, and each
      maps distinct inputs to distinct keys. */
  lemma KeysDisjoint(imdbId: string, term: string, id2: string, term2: string)
    ensures TitleKey(imdbId) != SubtitlesKey(term)
    ensures TitleKey(imdbId) == TitleKey(id2) ==> imdbId == id2
    ensures SubtitlesKey(term) == SubtitlesKey(term2) ==> term == term2
  {
    assert TitleKey(imdbId)[0] == 'i' && SubtitlesKey(term)[0] == 's';
  }

  lemma ItoaExamples()
    ensures Itoa(2010) == "2010" && Itoa(1) == "1" && Itoa(2) == "2" && Itoa(17) == "17"
  {
  }

  lemma Pad2Examples()
    ensures Pad2(1) == "01" && Pad2(2) == "02" && Pad2(17) == "17"
  {
    ItoaExamples();
  }

  lemma SearchTermExamples(movie: ImdbTitle, show: ImdbTitle)
    requires movie == ImdbTitle("Inception", 2010) && show == ImdbTitle("Friends", 1994)
    ensures SearchTerm("movie", movie, 0, 0) == "Inception (2010)"
    ensures SearchTerm("series", show, 1, 2) == "Friends S01E02"
    ensures SearchTerm("series", show, 1, 17) == "Friends S01E17"
  {
    ItoaExamples();
    Pad2Examples();
  }

  // ---- Ranking -------------------------------------------------------------------

  datatype Scored = Scored(id: int, score: int)

  predicate NonIncreasing(xs: seq<Scored>) {
    forall i, j :: 0 <= i < j < |xs| ==> xs[i].score >= xs[j].score
  }

  /** Each candidate with its score against the file name. */
  function ScoreAll(cands: seq<Subdivx.Subtitle>, filename: string): (r: seq<Scored>)
    ensures |r| == |cands|
    ensures forall i :: 0 <= i < |cands| ==>
              r[i].id == cands[i].id && r[i].score == Features.MatchScore(cands[i].descriptionWords, filename)
  {
    seq(|cands|, i requires 0 <= i < |cands| =>
      Scored(cands[i].id, Features.MatchScore(cands[i].descriptionWords, filename)))
  }

  /** An ordered list stays ordered under a head at least as large as its first element. */
  lemma ConsOrdered(h: Scored, t: seq<Scored>)
    requires NonIncreasing(t) && (t == [] || h.score >= t[0].score)
    ensures NonIncreasing([h] + t)
  {
    var l := [h] + t;
    forall i, j | 0 <= i < j < |l|
      ensures l[i].score >= l[j].score
    {
      if i == 0 {
        assert l[j] == t[j - 1];
        assert t[0].score >= t[j - 1].score;
      } else {
        assert l[i] == t[i - 1] && l[j] == t[j - 1];
      }
    }
  }

  function Insert(x: Scored, xs: seq<Scored>): (r: seq<Scored>)
    requires NonIncreasing(xs)
    ensures NonIncreasing(r)
    ensures multiset(r) == multiset(xs) + multiset{x}
    ensures r[0] == x || (xs != [] && r[0] == xs[0])
  {
    if xs == [] then [x]
    else if x.score >= xs[0].score then
      ConsOrdered(x, xs);
      [x] + xs
    else
      var t := Insert(x, xs[1..]);
      assert xs == [xs[0]] + xs[1..];
      ConsOrdered(xs[0], t);
      [xs[0]] + t
  }

  /** sort.Slice ordering by descending score. sort.Slice is not stable, so
      the contract promises only what it promises: a permutation in
      non-increasing score order. Insertion is one such order. */
  function SortByScore(xs: seq<Scored>): (r: seq<Scored>)
    ensures NonIncreasing(r)
    ensures multiset(r) == multiset(xs)
  {
    if xs == [] then []
    else
      assert xs == [xs[0]] + xs[1..];
      Insert(xs[0], SortByScore(xs[1..]))
  }

  function Scores(xs: seq<Scored>): (r: seq<int>)
    ensures |r| == |xs| && forall i :: 0 <= i < |xs| ==> r[i] == xs[i].score
  {
    seq(|xs|, i requires 0 <= i < |xs| => xs[i].score)
  }

  /** Dropping one element keeps the order. */
  lemma RemoveKeepsOrder(b: seq<Scored>, j: nat)
    requires NonIncreasing(b) && j < |b|
    ensures NonIncreasing(b[..j] + b[j + 1..])
  {
    var b' := b[..j] + b[j + 1..];
    forall p, q | 0 <= p < q < |b'|
      ensures b'[p].score >= b'[q].score
    {
      var p' := if p < j then p else p + 1;
      var q' := if q < j then q else q + 1;
      assert b'[p] == b[p'] && b'[q] == b[q'];
    }
  }

  /** Two orderings of the same elements by non-increasing score start with
      the same score, the maximum. */
  lemma HeadScoresAgree(a: seq<Scored>, b: seq<Scored>)
    requires multiset(a) == multiset(b) && a != []
    requires NonIncreasing(a) && NonIncreasing(b)
    ensures b != [] && a[0].score == b[0].score
  {
    assert a[0] in multiset(b);
    var j :| 0 <= j < |b| && b[j] == a[0];
    assert b[0] in multiset(a);
    var i :| 0 <= i < |a| && a[i] == b[0];
  }

  /** In an ordering, an element with the top score can be moved to the front
      without changing the scores listed. */
  lemma ScoresAfterRemoval(b: seq<Scored>, j: nat)
    requires NonIncreasing(b) && j < |b| && b[j].score == b[0].score
    ensures Scores(b) == [b[j].score] + Scores(b[..j] + b[j + 1..])
  {
    var b' := b[..j] + b[j + 1..];
    var r := [b[j].score] + Scores(b');
    forall k | 0 <= k < |b|
      ensures Scores(b)[k] == r[k]
    {
      if 0 < k <= j {
        assert b'[k - 1] == b[k - 1];
      } else if k > j {
        assert b'[k - 1] == b[k];
      }
    }
  }

  /** Removing the same element from two permutations of each other leaves
      permutations of each other. */
  lemma RemoveMatching(a: seq<Scored>, b: seq<Scored>, j: nat)
    requires multiset(a) == multiset(b) && a != [] && j < |b| && b[j] == a[0]
    ensures multiset(b[..j] + b[j + 1..]) == multiset(a[1..])
  {
    var b' := b[..j] + b[j + 1..];
    assert b == b[..j] + [b[j]] + b[j + 1..];
    assert a == [a[0]] + a[1..];
    calc {
      multiset(b') + multiset{a[0]};
      multiset(b[..j]) + multiset(b[j + 1..]) + multiset{b[j]};
      multiset(b[..j]) + multiset{b[j]} + multiset(b[j + 1..]);
      multiset(b);
      multiset(a);
      multiset(a[1..]) + multiset{a[0]};
    }
    forall e
      ensures multiset(b')[e] == multiset(a[1..])[e]
    {
      assert (multiset(b') + multiset{a[0]})[e] == (multiset(a[1..]) + multiset{a[0]})[e];
    }
  }

  /** Where the first element of one ordering sits in the other, and what is
      left of the other once it is taken out. */
  lemma MatchHead(a: seq<Scored>, b: seq<Scored>) returns (j: nat)
    requires multiset(a) == multiset(b) && a != []
    requires NonIncreasing(a) && NonIncreasing(b)
    ensures j < |b| && b[j] == a[0]
    ensures multiset(b[..j] + b[j + 1..]) == multiset(a[1..])
    ensures NonIncreasing(b[..j] + b[j + 1..])
    ensures Scores(b) == [a[0].score] + Scores(b[..j] + b[j + 1..])
    ensures NonIncreasing(a[1..]) && Scores(a) == [a[0].score] + Scores(a[1..])
  {
    assert Scores(a) == [a[0].score] + Scores(a[1..]);
    HeadScoresAgree(a, b);
    assert a[0] in multiset(b);
    j :| 0 <= j < |b| && b[j] == a[0];
    RemoveMatching(a, b, j);
    RemoveKeepsOrder(b, j);
    ScoresAfterRemoval(b, j);
  }

  /** Ties are the only freedom an unstable sort has: any two orderings of
      the same scored candidates by non-increasing score list the same scores. */
  lemma {:induction false} SortedScoresUnique(a: seq<Scored>, b: seq<Scored>)
    requires multiset(a) == multiset(b)
    requires NonIncreasing(a) && NonIncreasing(b)
    ensures Scores(a) == Scores(b)
    decreases |a|
  {
    if a == [] {
      assert |b| == |multiset(b)| == 0;
    } else {
      var j := MatchHead(a, b);
      SortedScoresUnique(a[1..], b[..j] + b[j + 1..]);
    }
  }

  /** strconv.Itoa of each ranked ID, in ranking order. */
  function RenderIds(ranking: seq<Scored>): (ids: seq<string>)
    ensures |ids| == |ranking|
    ensures forall i :: 0 <= i < |ranking| ==> ids[i] == Itoa(ranking[i].id)
  {
    seq(|ranking|, i requires 0 <= i < |ranking| => Itoa(ranking[i].id))
  }

  // ---- GetSubtitles -----------------------------------------------------------------

  datatype SearchResult = SearchResult(ids: seq<string>, lang: string, year: int)

  /** The service's collaborators and the JSON codecs of the two cached types. */
  datatype Backends = Backends(
    lookup: string -> Result<ImdbTitle>,
    search: string -> Result<Subdivx.Subtitles>,
    titleCodec: Cache.Codec<ImdbTitle>,
    subtitlesCodec: Cache.Codec<Subdivx.Subtitles>)

  /** The four clock readings a request takes, in the order it takes them:
      the title's lookup, the title's write after the IMDb fetch, the
      search's lookup, and the search's write after the Subdivx fetch. */
  datatype Clock = Clock(titleRead: int, titleWrite: int, searchRead: int, searchWrite: int)

  /** The cache as the request finds it: contents, clock, and whether each
      lookup's read or write transaction fails. */
  datatype CacheState = CacheState(store: Cache.Store, clock: Clock, titleFaults: Cache.Faults, searchFaults: Cache.Faults)

  /** The response, the store afterwards, the IMDb IDs looked up and the
      search terms sent upstream, and the intermediate values the response is
      built from. */
  datatype Outcome = Outcome(
    result: Result<SearchResult>,
    store: Cache.Store,
    lookups: seq<string>,
    searches: seq<string>,
    title: Option<ImdbTitle>,
    candidates: seq<Subdivx.Subtitle>,
    ranking: seq<Scored>)

  /** The memoized title lookup, against the store as the request finds it. */
  function TitleMemo(imdbId: string, b: Backends, c: CacheState): Cache.Memo<ImdbTitle> {
    Cache.Memoize(TitleKey(imdbId), TitleTtl, _ => b.lookup(imdbId), c.store,
                  c.clock.titleRead, c.clock.titleWrite, c.titleFaults, b.titleCodec)
  }

  /** The memoized search, against the store the title lookup left. */
  function SearchMemo(term: string, b: Backends, store: Cache.Store, c: CacheState): Cache.Memo<Subdivx.Subtitles> {
    Cache.Memoize(SubtitlesKey(term), SubtitlesTtl, _ => b.search(term), store,
                  c.clock.searchRead, c.clock.searchWrite, c.searchFaults, b.subtitlesCodec)
  }

  function GetSubtitles(titleType: string, imdbId: string, season: int, episode: int, filename: string,
                        b: Backends, c: CacheState): (o: Outcome)
    // no title, no search
    ensures o.title.None? ==> o.result.Err? && o.searches == [] && o.ranking == []
    ensures o.lookups == [] || o.lookups == [imdbId]
    ensures o.title.Some? ==>
              o.searches == [] || o.searches == [SearchTerm(titleType, o.title.value, season, episode)]
    // the response: every candidate once, by non-increasing score, in Spanish, with the title's year
    ensures o.result.Ok? ==>
              o.title.Some?
              && multiset(o.ranking) == multiset(ScoreAll(o.candidates, filename))
              && NonIncreasing(o.ranking)
              && o.result.value == SearchResult(RenderIds(o.ranking), "spa", o.title.value.year)
    // only the two keys may change
    ensures forall k :: k in c.store && k != TitleKey(imdbId)
              && (o.title.None? || k != SubtitlesKey(SearchTerm(titleType, o.title.value, season, episode)))
              ==> k in o.store && o.store[k] == c.store[k]
    // the title is what the memoized lookup gave; its failure is the response
    ensures var m1 := TitleMemo(imdbId, b, c);
            (o.title.Some? <==> m1.result.Ok?)
            && (o.title.Some? ==> o.title.value == m1.result.value)
            && o.lookups == (if m1.calls == [] then [] else [imdbId])
            && (m1.result.Err? ==> o.result == Err(m1.result.error) && o.store == m1.store)
    // the candidates are what the memoized search gave; its failure is the response
    ensures o.title.Some? ==>
              var term := SearchTerm(titleType, o.title.value, season, episode);
              var m2 := SearchMemo(term, b, TitleMemo(imdbId, b, c).store, c);
              o.store == m2.store
              && o.searches == (if m2.calls == [] then [] else [term])
              && (m2.result.Err? ==> o.result == Err(m2.result.error))
              && (m2.result.Ok? ==> o.result.Ok? && o.candidates == m2.result.value.subtitles)
  {
    var m1 := TitleMemo(imdbId, b, c);
    var lookups := if m1.calls == [] then [] else [imdbId];
    if m1.result.Err? then
      Outcome(Err(m1.result.error), m1.store, lookups, [], None, [], [])
    else
      var title := m1.result.value;
      var term := SearchTerm(titleType, title, season, episode);
      var m2 := SearchMemo(term, b, m1.store, c);
      var searches := if m2.calls == [] then [] else [term];
      if m2.result.Err? then
        Outcome(Err(m2.result.error), m2.store, lookups, searches, Some(title), [], [])
      else
        var cands := m2.result.value.subtitles;
        var ranking := SortByScore(ScoreAll(cands, filename));
        Outcome(Ok(SearchResult(RenderIds(ranking), "spa", title.year)),
                m2.store, lookups, searches, Some(title), cands, ranking)
  }

  /** With nothing cached and nothing failing, the title is looked up once,
      its search term is searched once, and the response ranks exactly what
      the search returned, whatever the clock reads. */
  lemma ColdCache(titleType: string, imdbId: string, season: int, episode: int, filename: string,
                  b: Backends, t: Clock)
    requires b.lookup(imdbId).Ok? && Cache.RoundTrips(b.titleCodec, b.lookup(imdbId).value)
    requires var term := SearchTerm(titleType, b.lookup(imdbId).value, season, episode);
             b.search(term).Ok? && Cache.RoundTrips(b.subtitlesCodec, b.search(term).value)
    ensures var o := GetSubtitles(titleType, imdbId, season, episode, filename, b,
                                  CacheState(map[], t, Cache.NoFaults, Cache.NoFaults));
            var term := SearchTerm(titleType, b.lookup(imdbId).value, season, episode);
            o.result.Ok? && o.lookups == [imdbId] && o.searches == [term]
            && o.title == Some(b.lookup(imdbId).value)
            && o.candidates == b.search(term).value.subtitles
            && |o.result.value.ids| == |b.search(term).value.subtitles|
  {
    var c := CacheState(map[], t, Cache.NoFaults, Cache.NoFaults);
    var title := b.lookup(imdbId).value;
    var term := SearchTerm(titleType, title, season, episode);
    var m1 := TitleMemo(imdbId, b, c);
    assert m1.result == Ok(title);
    var m2 := SearchMemo(term, b, m1.store, c);
    KeysDisjoint(imdbId, term, imdbId, term);
    assert !Cache.Live(m1.store, SubtitlesKey(term), t.searchRead);
    assert m2.result == b.search(term);
    var cands := b.search(term).value.subtitles;
    var o := GetSubtitles(titleType, imdbId, season, episode, filename, b, c);
    assert o.candidates == cands;
    assert |o.ranking| == |ScoreAll(cands, filename)| by {
      assert |multiset(o.ranking)| == |multiset(ScoreAll(cands, filename))|;
    }
  }

  /** Asking again before each entry's TTL, counted from the instant it was
      written, runs out serves both answers from the cache: nothing is looked
      up or searched, and the response is the same. */
  lemma WarmCache(titleType: string, imdbId: string, season: int, episode: int, filename: string,
                  b: Backends, t: Clock, t2: Clock)
    requires b.lookup(imdbId).Ok? && Cache.RoundTrips(b.titleCodec, b.lookup(imdbId).value)
    requires var term := SearchTerm(titleType, b.lookup(imdbId).value, season, episode);
             b.search(term).Ok? && Cache.RoundTrips(b.subtitlesCodec, b.search(term).value)
    requires t2.titleRead < t.titleWrite + TitleTtl
    requires t2.searchRead < t.searchWrite + SubtitlesTtl
    ensures var first := GetSubtitles(titleType, imdbId, season, episode, filename, b,
                                      CacheState(map[], t, Cache.NoFaults, Cache.NoFaults));
            var second := GetSubtitles(titleType, imdbId, season, episode, filename, b,
                                       CacheState(first.store, t2, Cache.NoFaults, Cache.NoFaults));
            second.lookups == [] && second.searches == [] && second.result == first.result
  {
    var c := CacheState(map[], t, Cache.NoFaults, Cache.NoFaults);
    var title := b.lookup(imdbId).value;
    var term := SearchTerm(titleType, title, season, episode);
    KeysDisjoint(imdbId, term, imdbId, term);
    var m1 := TitleMemo(imdbId, b, c);
    var m2 := SearchMemo(term, b, m1.store, c);
    assert m1.result == Ok(title);
    assert m2.result == b.search(term);
    var c2 := CacheState(m2.store, t2, Cache.NoFaults, Cache.NoFaults);
    var n1 := TitleMemo(imdbId, b, c2);
    assert n1 == Cache.Memo(Ok(title), m2.store, []);
    var n2 := SearchMemo(term, b, n1.store, c2);
    assert n2 == Cache.Memo(m2.result, m2.store, []);
  }

  /** A title that cannot be looked up fails the request before any search. */
  lemma TitleFailureStopsSearch(titleType: string, imdbId: string, season: int, episode: int, filename: string,
                                b: Backends, c: CacheState)
    requires !c.titleFaults.readFails && !Cache.Live(c.store, TitleKey(imdbId), c.clock.titleRead)
    requires b.lookup(imdbId).Err?
    ensures var o := GetSubtitles(titleType, imdbId, season, episode, filename, b, c);
            o.result == Err(b.lookup(imdbId).error) && o.lookups == [imdbId] && o.searches == []
            && o.store == c.store
  {
  }

  // ---- GetSubtitle: charset handling -------------------------------------------------

  /** What the charset detector reports; only the names the code compares
      against are distinguished. */
  datatype Charset = Utf8 | Windows1252 | Iso88591 | OtherCharset

  /** Charmap decoders to UTF-8. */
  datatype Charmaps = Charmaps(windows1252: seq<Byte> -> seq<Byte>, iso88591: seq<Byte> -> seq<Byte>)

  /** A Windows-1252 or ISO-8859-1 detection selects a decoder, but the bytes
      are then run through the Windows-1252 decoder in both cases; any other
      detection leaves the bytes as they are. */
  function Reencode(data: seq<Byte>, detect: seq<Byte> -> Charset, cm: Charmaps): (r: seq<Byte>)
    ensures detect(data) in {Windows1252, Iso88591} ==> r == cm.windows1252(data)
    ensures detect(data) !in {Windows1252, Iso88591} ==> r == data
  {
    match detect(data)
    case Windows1252 => cm.windows1252(data)
    case Iso88591 => cm.windows1252(data)
    case _ => data
  }

  /** The ISO-8859-1 table is never consulted. */
  lemma IsoDecoderUnused(data: seq<Byte>, detect: seq<Byte> -> Charset, w: seq<Byte> -> seq<Byte>,
                         iso1: seq<Byte> -> seq<Byte>, iso2: seq<Byte> -> seq<Byte>)
    ensures Reencode(data, detect, Charmaps(w, iso1)) == Reencode(data, detect, Charmaps(w, iso2))
  {
  }

  /** GetSubtitle: download and unpack, then re-encode the subtitle's bytes. */
  function GetSubtitle(reply: Result<Archive.HttpReply>, u: Archive.Unpackers,
                       detect: seq<Byte> -> Charset, cm: Charmaps): (r: Result<seq<Byte>>)
    ensures r.Ok? <==> Archive.GetSubtitle(reply, u).Ok?
    ensures r.Ok? ==> r.value == Reencode(Archive.GetSubtitle(reply, u).value.data, detect, cm)
    ensures r.Err? ==> r.error == Archive.GetSubtitle(reply, u).error
  {
    var sub :- Archive.GetSubtitle(reply, u);
    Ok(Reencode(sub.data, detect, cm))
  }

  // ---- Polled statistics ------------------------------------------------------------

  datatype Stats = Stats(searchesCount24: int, downloadsCount24: int, titleInstant: string)

  /** The log store's client answers 0 alongside any error. */
  function Polled(r: Result<int>): (n: int)
    ensures r.Err? ==> n == 0
    ensures r.Ok? ==> n == r.value
  {
    if r.Ok? then r.value else 0
  }

  /** The polling updater: a zero never overwrites a count. */
  function MergePolled(st: Stats, searches: int, downloads: int): (r: Stats)
    ensures r.titleInstant == st.titleInstant
    ensures r.searchesCount24 == (if searches != 0 then searches else st.searchesCount24)
    ensures r.downloadsCount24 == (if downloads != 0 then downloads else st.downloadsCount24)
  {
    var s1 := if searches != 0 then st.(searchesCount24 := searches) else st;
    if downloads != 0 then s1.(downloadsCount24 := downloads) else s1
  }

  /** The search path's updater: only the title changes. */
  function SetTitleInstant(st: Stats, name: string): (r: Stats)
    ensures r.searchesCount24 == st.searchesCount24 && r.downloadsCount24 == st.downloadsCount24
    ensures r.titleInstant == name
  {
    st.(titleInstant := name)
  }

  /** One polling round per element: the two client answers. */
  function PollRounds(st: Stats, rounds: seq<(Result<int>, Result<int>)>): Stats
    decreases |rounds|
  {
    if rounds == [] then st
    else
      var last := rounds[|rounds| - 1];
      MergePolled(PollRounds(st, rounds[..|rounds| - 1]), Polled(last.0), Polled(last.1))
  }

  /** The last non-zero value in `xs`, or `init` when there is none. */
  function LastNonZero(init: int, xs: seq<int>): (r: int)
    ensures r == init || r in xs
    ensures r == 0 ==> init == 0
  {
    if xs == [] then init
    else if xs[|xs| - 1] != 0 then xs[|xs| - 1]
    else LastNonZero(init, xs[..|xs| - 1])
  }

  /** After any sequence of polls each count is the last non-zero value the
      client reported, failures reporting 0; the title is untouched. */
  lemma {:induction false} PollRoundsSpec(st: Stats, rounds: seq<(Result<int>, Result<int>)>)
    ensures PollRounds(st, rounds).titleInstant == st.titleInstant
    ensures PollRounds(st, rounds).searchesCount24
         == LastNonZero(st.searchesCount24, seq(|rounds|, i requires 0 <= i < |rounds| => Polled(rounds[i].0)))
    ensures PollRounds(st, rounds).downloadsCount24
         == LastNonZero(st.downloadsCount24, seq(|rounds|, i requires 0 <= i < |rounds| => Polled(rounds[i].1)))
    decreases |rounds|
  {
    if rounds != [] {
      var p := rounds[..|rounds| - 1];
      PollRoundsSpec(st, p);
      var xs := seq(|rounds|, i requires 0 <= i < |rounds| => Polled(rounds[i].0));
      var ys := seq(|rounds|, i requires 0 <= i < |rounds| => Polled(rounds[i].1));
      assert xs[..|xs| - 1] == seq(|p|, i requires 0 <= i < |p| => Polled(p[i].0));
      assert ys[..|ys| - 1] == seq(|p|, i requires 0 <= i < |p| => Polled(p[i].1));
    }
  }

  /** A round in which both queries fail leaves the statistics as they were. */
  lemma FailedPollKeepsStats(st: Stats, e1: Error, e2: Error)
    ensures MergePolled(st, Polled(Err(e1)), Polled(Err(e2))) == st
  {
  }
}

=== FILE: subdivx.dfy ===
/** The search half of the Subdivx client: the site-version scrape, the
    search form and the mapping of reply rows to candidates
    (pkg/subdivx/subdivx.go, GetSubtitles). The HTTP client, the cookie and
    JSON decoding are outside the model: the landing page arrives as text,
    the search call is an oracle from the form to a decoded reply. */
module Subdivx {
  import opened Results
  import opened Ascii
  import Features

  // ---- Version scrape: the first capture of `>v([0-9.a-z]+)<` -------------

  predicate IsVersionChar(c: char) { IsDigit(c) || IsLower(c) || c == '.' }

  /** Length of the run of version characters that starts at `i`. */
  function RunLength(html: string, i: nat): (n: nat)
    requires i <= |html|
    ensures i + n <= |html|
    ensures forall k :: i <= k < i + n ==> IsVersionChar(html[k])
    ensures i + n == |html| || !IsVersionChar(html[i + n])
    decreases |html| - i
  {
    if i < |html| && IsVersionChar(html[i]) then 1 + RunLength(html, i + 1) else 0
  }

  /** The pattern matches at `i` with capture `run`. */
  predicate MatchesAt(html: string, i: nat, run: string) {
    |run| > 0
    && i + 2 + |run| < |html|
    && html[i] == '>' && html[i + 1] == 'v'
    && html[i + 2..i + 2 + |run|] == run
    && (forall k :: 0 <= k < |run| ==> IsVersionChar(run[k]))
    && html[i + 2 + |run|] == '<'
  }

  /** The capture of a match at `i`, if the pattern matches there. */
  function CaptureAt(html: string, i: nat): (r: Option<string>)
    ensures r.Some? ==> MatchesAt(html, i, r.value)
  {
    if i + 2 <= |html| && html[i] == '>' && html[i + 1] == 'v' then
      var n := RunLength(html, i + 2);
      if n > 0 && i + 2 + n < |html| && html[i + 2 + n] == '<' then
        Some(html[i + 2..i + 2 + n])
      else
        None
    else
      None
  }

  /** A run of `m` version characters ended by another character has
      length `m`. */
  lemma {:induction false} RunLengthExact(html: string, j: nat, m: nat)
    requires j + m < |html|
    requires forall k :: j <= k < j + m ==> IsVersionChar(html[k])
    requires !IsVersionChar(html[j + m])
    ensures RunLength(html, j) == m
    decreases m
  {
    if m > 0 {
      RunLengthExact(html, j + 1, m - 1);
    }
  }

  /** Since '<' is not a version character, a match captures the whole run
      after ">v", so CaptureAt finds every match. */
  lemma CaptureAtComplete(html: string, i: nat, run: string)
    requires MatchesAt(html, i, run)
    ensures CaptureAt(html, i) == Some(run)
  {
    assert forall k :: i + 2 <= k < i + 2 + |run| ==> html[k] == run[k - i - 2];
    RunLengthExact(html, i + 2, |run|);
  }

  /** Leftmost match at or after `from`, as (position, capture). */
  function FindVersionFrom(html: string, from: nat): (r: Option<(nat, string)>)
    ensures r.Some? ==> from <= r.value.0 && MatchesAt(html, r.value.0, r.value.1)
    ensures r.Some? ==> forall j, run :: from <= j < r.value.0 ==> !MatchesAt(html, j, run)
    ensures r.None? ==> forall j, run :: from <= j ==> !MatchesAt(html, j, run)
    decreases |html| - from
  {
    if from >= |html| then
      None
    else
      match CaptureAt(html, from)
      case Some(run) => Some((from, run))
      case None =>
        assert forall run :: !MatchesAt(html, from, run) by {
          forall run | MatchesAt(html, from, run)
            ensures false
          {
            CaptureAtComplete(html, from, run);
          }
        }
        FindVersionFrom(html, from + 1)
  }

  /** Every '.' removed, everything else kept in order. */
  function StripDots(s: string): (r: string)
    ensures '.' !in r
    ensures forall c :: c != '.' ==> multiset(r)[c] == multiset(s)[c]
  {
    if s == [] then []
    else
      assert s == [s[0]] + s[1..];
      if s[0] == '.' then StripDots(s[1..])
      else [s[0]] + StripDots(s[1..])
  }

  /** Site version: the leftmost capture with its dots removed. No match is an
      error, so no search is attempted. */
  function ExtractVersion(html: string): (r: Result<string>)
    ensures r.Err? ==> r == Err(VersionNotFound)
    ensures r.Ok? ==> '.' !in r.value
  {
    match FindVersionFrom(html, 0)
    case None => Err(VersionNotFound)
    case Some((_, run)) => Ok(StripDots(run))
  }

  lemma {:induction false} StripDotsAppend(a: string, b: string)
    ensures StripDots(a + b) == StripDots(a) + StripDots(b)
  {
    if a != [] {
      assert (a + b)[0] == a[0];
      assert (a + b)[1..] == a[1..] + b;
      StripDotsAppend(a[1..], b);
    } else {
      assert a + b == b;
    }
  }

  lemma {:induction false} StripDotsNoDots(s: string)
    requires '.' !in s
    ensures StripDots(s) == s
  {
    if s != [] {
      assert s[0] in s;
      assert forall c :: c in s[1..] ==> c in s;
      StripDotsNoDots(s[1..]);
    }
  }

  /** The version is present exactly when the pattern matches somewhere, and
      then it is the leftmost capture with dots removed. */
  lemma ExtractVersionSpec(html: string)
    ensures ExtractVersion(html).Ok? <==> exists i: nat, run :: MatchesAt(html, i, run)
    ensures forall i: nat, run :: MatchesAt(html, i, run)
              && (forall j: nat, r2 :: j < i ==> !MatchesAt(html, j, r2))
              ==> ExtractVersion(html) == Ok(StripDots(run))
  {
    var f := FindVersionFrom(html, 0);
    if f.Some? {
      var (p, run) := f.value;
      assert MatchesAt(html, p, run);
      forall i: nat, r1 | MatchesAt(html, i, r1) && (forall j: nat, r2 :: j < i ==> !MatchesAt(html, j, r2))
        ensures ExtractVersion(html) == Ok(StripDots(r1))
      {
        assert p <= i by { assert MatchesAt(html, i, r1); }
        assert i <= p by { assert MatchesAt(html, p, run); }
        CaptureAtComplete(html, p, r1);
        CaptureAtComplete(html, p, run);
      }
    }
  }

  /** In the landing-page fragment served by the test server of
      subdivx_test.go the leftmost match is at position 9. */
  lemma LeftmostMatchExample(html: string)
    requires html == "<html>\n<v>v1a.0b</v>"
    ensures MatchesAt(html, 9, "1a.0b")
    ensures forall j: nat, r2 :: j < 9 ==> !MatchesAt(html, j, r2)
  {
    forall j: nat, r2 | j < 9
      ensures !MatchesAt(html, j, r2)
    {
      assert html[j] != '>' || html[j + 1] != 'v';
    }
  }

  lemma StripDotsExample()
    ensures StripDots("1a.0b") == "1a0b"
  {
  }

  lemma ExtractVersionExample(html: string)
    requires html == "<html>\n<v>v1a.0b</v>"
    ensures ExtractVersion(html) == Ok("1a0b")
  {
    LeftmostMatchExample(html);
    ExtractVersionSpec(html);
    StripDotsExample();
  }

  // ---- Search form ---------------------------------------------------------

  /** A url.Values in which every field carries one value. */
  type Form = map<string, string>

  /** The session token; its cookie is transport state, outside the model. */
  datatype Token = Token(token: string)

  const SearchFieldPrefix := "buscar"

  /** The POST body: the search field's name carries the site version. */
  function SearchForm(version: string, title: string, token: Token): (f: Form)
    ensures |f| == 4
    ensures f.Keys == {"tabla", "filtros", SearchFieldPrefix + version, "token"}
    ensures f["tabla"] == "resultados" && f["filtros"] == ""
    ensures f[SearchFieldPrefix + version] == title && f["token"] == token.token
  {
    var k := SearchFieldPrefix + version;
    assert |k| >= 6 && k[0] == 'b';
    map["tabla" := "resultados", "filtros" := "", k := title, "token" := token.token]
  }

  // ---- Rows to candidates --------------------------------------------------

  /** One element of `aaData`. */
  datatype Row = Row(id: int, title: string, description: string)

  /** The decoded JSON reply. */
  datatype Payload = Payload(totalRecords: int, rows: seq<Row>)

  /** The search reply: the status, and the decoded body unless it was
      malformed. */
  datatype Reply = Reply(status: int, payload: Option<Payload>)

  datatype Subtitle = Subtitle(id: int, title: string, description: string, descriptionWords: seq<string>)

  datatype Subtitles = Subtitles(totalRecords: int, subtitles: seq<Subtitle>)

  function ToSubtitle(row: Row): (s: Subtitle)
    ensures s.id == row.id && s.title == row.title && s.description == row.description
  {
    Subtitle(row.id, row.title, row.description, Features.Words(row.title + " " + row.description))
  }

  /** The largest capacity `make([]*Subtitle, 0, n)` accepts on a 64-bit
      Linux build: the runtime refuses a slice of more than 2^48 bytes
      (maxAlloc), and each element is an 8-byte pointer. */
  const MaxSliceCap: int := 0x2000_0000_0000

  /** Whether `make` panics for capacity `n`: "makeslice: cap out of range". */
  predicate CapOutOfRange(n: int) {
    n < 0 || n > MaxSliceCap
  }

  /** One candidate per row, in row order; `totalRecords` is copied, and only
      sizes the slice the rows are appended to (see GetSubtitles). */
  function Candidates(p: Payload): (r: Subtitles)
    ensures r.totalRecords == p.totalRecords
    ensures |r.subtitles| == |p.rows|
    ensures forall i :: 0 <= i < |p.rows| ==> r.subtitles[i] == ToSubtitle(p.rows[i])
  {
    Subtitles(p.totalRecords, seq(|p.rows|, i requires 0 <= i < |p.rows| => ToSubtitle(p.rows[i])))
  }

  /** The whole search: scrape the version, post the form, map the rows.
      `page` is the landing page or the transport failure that replaced it;
      `post` answers a form with a reply or a transport failure. */
  function GetSubtitles(page: Result<string>, token: Token, title: string,
                        post: Form -> Result<Reply>): (r: Result<Subtitles>)
    ensures page.Err? ==> r == Err(page.error)
    ensures page.Ok? && ExtractVersion(page.value).Err? ==> r == Err(VersionNotFound)
    ensures r.Ok? ==> page.Ok? && ExtractVersion(page.value).Ok?
    ensures r.Ok? ==>
      var reply := post(SearchForm(ExtractVersion(page.value).value, title, token));
      reply.Ok? && reply.value.status == 200 && reply.value.payload.Some?
      && !CapOutOfRange(reply.value.payload.value.totalRecords)
      && r.value == Candidates(reply.value.payload.value)
    // once the version is known, the reply decides: its transport error, a
    // non-200 status, a body that did not decode, a record count `make`
    // refuses, or the candidates
    ensures page.Ok? && ExtractVersion(page.value).Ok? ==>
      var reply := post(SearchForm(ExtractVersion(page.value).value, title, token));
      (reply.Err? ==> r == Err(reply.error))
      && (reply.Ok? && reply.value.status != 200 ==> r == Err(BadStatus(reply.value.status)))
      && (reply.Ok? && reply.value.status == 200 && reply.value.payload.None? ==> r == Err(MalformedJson))
      && (reply.Ok? && reply.value.status == 200 && reply.value.payload.Some? ==>
            r == if CapOutOfRange(reply.value.payload.value.totalRecords) then Err(Aborted)
                 else Ok(Candidates(reply.value.payload.value)))
  {
    var html :- page;
    var version :- ExtractVersion(html);
    var reply :- post(SearchForm(version, title, token));
    if reply.status != 200 then Err(BadStatus(reply.status))
    else if reply.payload.None? then Err(MalformedJson)
    else if CapOutOfRange(reply.payload.value.totalRecords) then Err(Aborted)
    else Ok(Candidates(reply.payload.value))
  }

  /** A reply with any status but 200 is an error that carries the status, and
      no candidates come back. */
  lemma NonOkStatusFails(page: Result<string>, token: Token, title: string,
                         post: Form -> Result<Reply>)
    requires page.Ok? && ExtractVersion(page.value).Ok?
    requires post(SearchForm(ExtractVersion(page.value).value, title, token)).Ok?
    requires post(SearchForm(ExtractVersion(page.value).value, title, token)).value.status != 200
    ensures GetSubtitles(page, token, title, post)
         == Err(BadStatus(post(SearchForm(ExtractVersion(page.value).value, title, token)).value.status))
  {
  }

  /** A negative `iTotalRecords` in an otherwise good reply makes `make`
      panic, so no candidates come back, however many rows there are. */
  lemma NegativeTotalAborts(page: Result<string>, token: Token, title: string,
                            post: Form -> Result<Reply>, total: int, rows: seq<Row>)
    requires page.Ok? && ExtractVersion(page.value).Ok?
    requires post(SearchForm(ExtractVersion(page.value).value, title, token)) == Ok(Reply(200, Some(Payload(total, rows))))
    requires total < 0
    ensures GetSubtitles(page, token, title, post) == Err(Aborted)
  {
  }

  /** Candidate i comes from row i; the record count plays no part in the
      mapping, only in GetSubtitles' `make`. */
  lemma CandidatesFollowRows(p: Payload, total: int)
    ensures Candidates(Payload(total, p.rows)).subtitles == Candidates(p).subtitles
    ensures forall i :: 0 <= i < |p.rows| ==> Candidates(p).subtitles[i].id == p.rows[i].id
  {
  }

  lemma NormalizeJoin(a: string, b: string)
    ensures Features.Normalize(a + " " + b) == Features.Normalize(a) + " " + Features.Normalize(b)
  {
    var l := Features.Normalize(a + " " + b);
    var r := Features.Normalize(a) + " " + Features.Normalize(b);
    assert |l| == |r|;
    forall i | 0 <= i < |l|
      ensures l[i] == r[i]
    {
      if i < |a| {
        assert (a + " " + b)[i] == a[i];
      } else if i == |a| {
        assert (a + " " + b)[i] == ' ';
      } else {
        assert (a + " " + b)[i] == b[i - |a| - 1];
      }
    }
  }

  /** A candidate's words are exactly the words of its title and of its
      description. */
  lemma CandidateWords(row: Row)
    ensures forall w :: w in ToSubtitle(row).descriptionWords
              <==> w in Features.Words(row.title) || w in Features.Words(row.description)
  {
    var nt := Features.Normalize(row.title);
    var nd := Features.Normalize(row.description);
    NormalizeJoin(row.title, row.description);
    Features.FieldsSplit(nt, nd);
    Features.WordsFirstOccurrences(row.title + " " + row.description);
    Features.WordsFirstOccurrences(row.title);
    Features.WordsFirstOccurrences(row.description);
  }
}

=== FILE: validator.dfy ===
/** Request validators of the HTTP layer (internal/common/validator.go). */
module Validator {
  import opened Ascii
  import opened Decimal

  datatype Rejection = InvalidImdbTitle | InvalidSubtitleType | IdNotANumber | IdNotPositive

  datatype Verdict = Accepted | Rejected(reason: Rejection)

  /** The pattern `^tt\d+$`: "tt" and then one or more ASCII digits, nothing else. */
  function ValidateImdbTitleId(id: string): (v: Verdict)
    ensures v.Accepted? <==> exists digits :: id == "tt" + digits && |digits| > 0 && AllDigits(digits)
    ensures v.Rejected? ==> v.reason == InvalidImdbTitle
  {
    if |id| >= 3 && id[..2] == "tt" && AllDigits(id[2..]) then
      assert id == "tt" + id[2..];
      Accepted
    else
      Rejected(InvalidImdbTitle)
  }

  /** Only the two content kinds the addon serves. */
  function ValidateSubtitleType(t: string): (v: Verdict)
    ensures v.Accepted? <==> t in {"movie", "series"}
    ensures v.Rejected? ==> v.reason == InvalidSubtitleType
  {
    if t != "movie" && t != "series" then Rejected(InvalidSubtitleType) else Accepted
  }

  /** strconv.Atoi must succeed and the value must be positive; the two
      failures are reported differently. */
  function ValidateSubdivxSubtitleId(id: string): (v: Verdict)
    ensures v.Accepted? <==> IsDecimal(id) && 0 < LiteralValue(id) <= MaxInt64
    ensures v == Rejected(IdNotANumber) <==> !(IsDecimal(id) && MinInt64 <= LiteralValue(id) <= MaxInt64)
    ensures v.Rejected? ==> v.reason in {IdNotANumber, IdNotPositive}
  {
    AtoiExact(id);
    match Atoi(id)
    case Parsed(n) => if n <= 0 then Rejected(IdNotPositive) else Accepted
    case _ => Rejected(IdNotANumber)
  }

  /** Every positive int64 rendered by strconv.Itoa, which is how the
      service lists subtitle IDs, passes the download validator. */
  lemma RenderedIdsValidate(n: int)
    requires 0 < n <= MaxInt64
    ensures ValidateSubdivxSubtitleId(Itoa(n)) == Accepted
  {
    AtoiItoa(n);
    AtoiExact(Itoa(n));
  }

  lemma ImdbAcceptedExamples()
    ensures ValidateImdbTitleId("tt1234567") == Accepted
    ensures ValidateImdbTitleId("tt0012345") == Accepted
    ensures ValidateImdbTitleId("tt0") == Accepted
  {
    assert "tt1234567"[..2] == "tt" && AllDigits("tt1234567"[2..]);
    assert "tt0012345"[..2] == "tt" && AllDigits("tt0012345"[2..]);
    assert "tt0"[..2] == "tt" && AllDigits("tt0"[2..]);
  }

  lemma ImdbRejectedExamples()
    ensures ValidateImdbTitleId("tt") == Rejected(InvalidImdbTitle)
    ensures ValidateImdbTitleId("tt-1") == Rejected(InvalidImdbTitle)
    ensures ValidateImdbTitleId("1234567") == Rejected(InvalidImdbTitle)
    ensures ValidateImdbTitleId("ttabcdefg") == Rejected(InvalidImdbTitle)
    ensures ValidateImdbTitleId("") == Rejected(InvalidImdbTitle)
  {
    assert "tt-1"[2..][0] == '-';
    assert "1234567"[..2][0] == '1';
    assert "ttabcdefg"[2..][0] == 'a';
  }

  lemma SubtitleIdExamples()
    ensures ValidateSubdivxSubtitleId("123456") == Accepted
    ensures ValidateSubdivxSubtitleId("0") == Rejected(IdNotPositive)
    ensures ValidateSubdivxSubtitleId("-123456") == Rejected(IdNotPositive)
    ensures ValidateSubdivxSubtitleId("abc123") == Rejected(IdNotANumber)
    ensures ValidateSubdivxSubtitleId("") == Rejected(IdNotANumber)
  {
    SixDigits();
    RenderedIdExample("123456", 123456);
    RenderedIdExample("0", 0);
    RenderedIdExample("-123456", -123456);
    assert !IsDigit(Unsigned("abc123")[0]);
  }

  /** The validator's verdict on the decimal rendering of `n`. */
  lemma RenderedIdExample(s: string, n: int)
    requires MinInt64 <= n <= MaxInt64 && s == Itoa(n)
    ensures ValidateSubdivxSubtitleId(s) == if n > 0 then Accepted else Rejected(IdNotPositive)
  {
    AtoiItoa(n);
  }

  lemma SixDigits()
    ensures Itoa(123456) == "123456" && Itoa(-123456) == "-123456"
  {
    assert NatToString(1) == "1";
    assert NatToString(12) == "12";
    assert NatToString(123) == "123";
    assert NatToString(1234) == "1234";
    assert NatToString(12345) == "12345";
    assert NatToString(123456) == "123456";
  }
}
